=== FILE: README.md ===
# FME Cloud JavaScript client — a Dafny model

This project models the logic of the FME Cloud JavaScript client in both of
its revisions, `v1/FMECloud.js` and `v1.2/FMECloud.js`:

- the `Array.prototype.indexOf` and `String.prototype.trim` polyfills;
- the configuration object with its defaults, `_config` / `getConfig`,
  `checkConfig`, the token check of the v1 constructor and of v1.2 `init`,
  and the IE8/IE9 cross-domain test, including the host extraction
  `server.split('//')[1].split('/')[0]`;
- URL templating (`_URL` / `buildURL`): two global literal `replace` passes;
- the request dispatcher (`_ajax` / `ajax`). This covers the request it
  builds (the method, the Accept, Authorization and Content-type headers,
  the body), the v1 cross-domain report and the v1.2 guard clauses, the
  normalisation of a completed response, and the delivery of that response
  to the callback exactly once;
- the table of the ten cloud operations (`launchInstance` … `getVersions`).

Both revisions live in one model. `Revision = V1 | V1_2` selects where
they differ:

- the default server;
- the default Accept value;
- whether a token is present from the start;
- the v1 error report versus the v1.2 throw.

## Modules

| file | module | contents |
|---|---|---|
| wrappers.dfy | `Wrappers` | `Option`, `Result` |
| text.dfy | `Text` | JavaScript falsy defaults; occurrence search (`indexOf` on strings); `split` with a string separator; `join` |
| js_replace.dfy | `JsReplace` | `replace` with a global literal pattern, including `$` expansion in the replacement |
| polyfills.dfy | `Polyfills` | the `indexOf` loop and its ECMA-262 reference; `trim` |
| config.dfy | `Config` | settings, defaults, host extraction, cross-domain test, constructor/`init`, `getConfig`, `checkConfig` |
| url_template.dfy | `UrlTemplate` | `_URL` / `buildURL` |
| dispatcher.dfy | `Dispatcher` | request building, guards, response normalisation, the `readystatechange` trace and delivery |
| endpoints.dfy | `Endpoints` | the operation table and what each operation sends |

## Modelling choices

- **Optional arguments.** A JavaScript argument that may be `undefined` or
  `null` is an `Option`. `None` stands for both. `Falsy` also counts
  `Some("")` as false, because `x || d` treats the empty string that way.
- **`JSON.parse`.** It is a parameter `parse: string -> Option<Json>`.
  `None` stands for "throws".
- **Response sentinels.** `ParsesSentinels(parse)` is the one assumption
  made about the parser. It says that the two texts the client substitutes
  parse to the objects they spell, and that the empty text does not parse.
- **The transport.** It is reduced to the sequence of `readystatechange`
  events (`Xhr(readyState, status, responseText)`). As XMLHttpRequest fires
  them, DONE (4) comes at most once, as the last event (`WellFormed`).
- **The browser.** It is the input `Browser(locationHost, appName,
  appVersion)`, holding exactly the fields the cross-domain test reads.
- **Throws.** A throw is a `Failure` / `Thrown` value carrying the message
  the code throws.
- **Callback argument.** Whether the callback argument is a function is a
  boolean input.
- **The 204/202 sentinels.** The code substitutes the texts
  `{ "delete" : "true" }` and `{ "value" : "true" }`, whose values are
  the string `"true"`, not a boolean; the model keeps these texts.
- **`init("")`.** v1.2 `init` accepts an empty-string token: only
  `undefined` and `null` are rejected. `checkConfig` then still throws,
  because it tests truthiness. `InitThenCheck` states exactly this.
- **Calls before `init`.** The v1.2 operations never call `checkConfig`.
  Before `init` they therefore still send, with `Authorization: Bearer
  undefined` (`SendsBeforeInit`).

## Model

| member | source | states |
|---|---|---|
| Text.FindFrom | v1/FMECloud.js:109 | the result is the first index at or after `from` where the pattern occurs; it is absent exactly when the pattern occurs nowhere from there on |
| Text.Split | v1/FMECloud.js:107 | `split` with a string separator yields at least one piece, no piece contains the separator, and every cut is leftmost: a piece followed by the separator first holds the separator at its own end |
| Text.SplitFromLeftmost | v1.2/FMECloud.js:180 | the pieces of a split resumed at any index are cut at leftmost occurrences of the separator |
| Text.JoinSplit | v1/FMECloud.js:107 | joining the pieces of `split(sep)` with `sep` gives back the original text, so `split` loses nothing |
| JsReplace.Substitute | v1/FMECloud.js:194-195 | a replacement text without `$` is inserted verbatim for a match |
| JsReplace.ReplaceAll | v1/FMECloud.js:194-195 | a global literal `replace` leaves a text without the pattern unchanged; with a `$`-free replacement it equals `split(pat).join(rep)`, i.e. every leftmost non-overlapping occurrence is replaced |
| JsReplace.ReplaceIsSplitJoin | v1.2/FMECloud.js:155-156 | from any position, the replacement scan with a `$`-free replacement agrees with splitting at the pattern and joining with the replacement |
| JsReplace.ReplaceSkip | v1.2/FMECloud.js:155-156 | a stretch of text in which the pattern does not start is copied to the result unchanged |
| Polyfills.IndexOf | v1/FMECloud.js:67-74 | the loop returns -1 or an index `i` with `start <= i < length` holding `obj`; no index in `[start, i)` holds `obj`, and -1 means no index in `[start, length)` does; `start` defaults to 0 |
| Polyfills.FirstMatch | v1.2/FMECloud.js:46-52 | the scan's answer is -1 or the first index at or after `from` holding `obj`; indices below zero read `undefined` and match nothing, for an `obj` other than `undefined` |
| Polyfills.NativeStart | v1/FMECloud.js:69 | the ECMA-262 start: a non-negative `start` is kept; a negative one becomes length + `start` when that is not negative, and 0 otherwise |
| Polyfills.NativeIndexOf | v1/FMECloud.js:68-73 | ECMA-262 `indexOf`: -1 or the first index at or after the resolved start holding `obj` |
| Polyfills.PolyfillAgreesWithNative | v1/FMECloud.js:69 | for a missing or non-negative start the polyfill and ECMA-262 `indexOf` give the same answer |
| Polyfills.FirstMatchBelowZero | v1/FMECloud.js:69-71 | a scan from a negative index finds what the scan from 0 finds |
| Polyfills.PolyfillIgnoresNegativeStart | v1.2/FMECloud.js:48 | the polyfill treats every negative start like no start |
| Polyfills.NegativeStartDiffers | v1/FMECloud.js:69 | on `[3, 1, 3]` with start -1 the polyfill answers 0 while ECMA-262 answers 2 |
| Polyfills.LeadingSpace | v1/FMECloud.js:77 | the `^\s+` run: everything before it is white space and the character after it is not |
| Polyfills.TrailingSpace | v1/FMECloud.js:77 | the `\s+$` run: everything after it is white space and the character before it is not |
| Polyfills.TrimBounds | v1/FMECloud.js:77 | the two runs fit in the text, are white space, are bounded by non-space characters, and cover the whole text exactly when it is all white space |
| Polyfills.Trim | v1/FMECloud.js:75-79 | the result is a contiguous piece of the input with only white space before and after it, neither starts nor ends with white space, and is empty exactly when the input is all white space |
| Polyfills.TrimUnique | v1.2/FMECloud.js:55-59 | whatever lies between a white-space prefix and suffix and does not itself start or end with white space is exactly what `trim` returns |
| Polyfills.TrimIdempotent | v1.2/FMECloud.js:55-59 | trimming twice is trimming once |
| Config.Initial | v1.2/FMECloud.js:64-68 | before `init` the v1.2 configuration has no token and is not in cross-domain mode |
| Config.HostOf | v1/FMECloud.js:107 | the host is defined exactly when the server contains `//`; it holds no `/`, starts right after the first `//`, and ends at the next `/` or the end of the server |
| Config.DefaultHosts | v1.2/FMECloud.js:66 | the default servers' hosts are `api.fmecloud.com` (v1) and `api.fmecloud.safe.com` (v1.2) |
| Config.DefaultHost | v1/FMECloud.js:86 | a server written `https://` followed by a host without `/` has exactly that host |
| Config.CrossDomain | v1/FMECloud.js:107-113 | the test throws exactly when the server has no `//`; otherwise it answers true exactly when the page host differs from the server's host and the browser is IE 8 or 9 |
| Config.Construct | v1/FMECloud.js:54-113 | the v1 constructor fails with its message exactly when the token is undefined; otherwise it holds the token, the default server and `v1`, and is in cross-domain mode exactly for IE 8/9 on a page not served from `api.fmecloud.com` |
| Config.Init | v1.2/FMECloud.js:168-187 | `init` without a token throws and changes nothing; with one it stores the token and keeps server and version; it throws exactly when the token is missing or the server has no `//`; it never switches cross-domain mode off; when it does not throw, cross-domain mode ends up on exactly when it was on already or the page host differs from the server's host on IE 8/9 |
| Config.GetConfig | v1.2/FMECloud.js:75-81 | a falsy name yields the whole object; each known name yields its entry, the unset token `undefined`, and an unknown name `undefined` |
| Config.CheckReadsToken | v1.2/FMECloud.js:86-91 | `checkConfig` reads the `token` member of the object `getConfig()` returns and succeeds exactly when it is truthy |
| Config.LegacyIEIff | v1/FMECloud.js:108-109 | the browser test holds exactly for the application name `Microsoft Internet Explorer` with `MSIE 9` or `MSIE 8` occurring somewhere in the version text |
| Config.CheckConfig | v1.2/FMECloud.js:86-91 | `checkConfig` returns true exactly when the token is set and non-empty, and otherwise throws the initialisation message |
| Config.InitThenCheck | v1.2/FMECloud.js:168-175 | after `init(token)`, `checkConfig` succeeds exactly when the token is non-empty, whether or not the cross-domain test threw |
| Config.InitWithoutToken | v1.2/FMECloud.js:172-174 | an `init` without a token leaves `checkConfig`'s answer as it was |
| Config.CheckBeforeInit | v1.2/FMECloud.js:86-91 | before any `init`, `checkConfig` throws |
| UrlTemplate.BuildUrl | v1/FMECloud.js:193-197 | a template holding neither placeholder comes back unchanged |
| UrlTemplate.DefaultsArePlain | v1/FMECloud.js:84-89 | the default server and version hold no `$` and the server holds no `{{ver}}`, so both are inserted literally |
| UrlTemplate.ApiPath | v1.2/FMECloud.js:154-158 | `{{svr}}/{{ver}}` followed by a placeholder-free path expands to server + `/` + version + path |
| UrlTemplate.ServerPass | v1.2/FMECloud.js:155 | the first pass replaces the leading `{{svr}}` and nothing after it |
| UrlTemplate.VersionPass | v1.2/FMECloud.js:156 | the second pass replaces the single `{{ver}}` between server and path |
| UrlTemplate.PassOrder | v1/FMECloud.js:194-195 | the passes run in order: a `{{ver}}` brought in by the server is replaced by the second pass, a `{{svr}}` brought in by the version is not |
| Dispatcher.BuildRequest | v1/FMECloud.js:133-162 | the method defaults to GET and Accept to the revision's default; Authorization is always `Bearer ` + token (`undefined` when unset); Content-type is present exactly when a content type is given; no other header is set, and no name is set twice; a falsy payload sends no body |
| Dispatcher.AuthorizationReadsToken | v1.2/FMECloud.js:119 | the Authorization header is `Bearer ` followed by `getConfig('token')` as string concatenation renders it, `undefined` before a token is stored |
| Dispatcher.GuardReadsXdomain | v1.2/FMECloud.js:112-113 | the cross-domain guard of both revisions fires exactly when `getConfig('xdomain')` is truthy |
| Dispatcher.Ajax | v1.2/FMECloud.js:102-123 | a request is sent exactly outside cross-domain mode and, in v1.2, with a callback function; v1 in cross-domain mode reports the URL, request type and parameters instead; v1.2 throws the callback message first, then the CORS message |
| Dispatcher.CrossDomainReport | v1/FMECloud.js:141-152 | in cross-domain mode v1 sends nothing, throws nothing, and delivers exactly one report carrying the URL, the request type and the parameters |
| Dispatcher.GuardsThrow | v1.2/FMECloud.js:109-113 | without a callback function, or in cross-domain mode, v1.2 throws the matching message and sends and delivers nothing |
| Dispatcher.Normalise | v1/FMECloud.js:167-181 | a non-empty body is delivered parsed, or raw when parsing throws; an empty 204 body is delivered as the delete object, an empty 202 body as the value object, any other empty body raw |
| Dispatcher.StatusIrrelevant | v1.2/FMECloud.js:130-137 | for a non-empty body the delivery does not depend on the status |
| Dispatcher.OnReadyStateChange | v1/FMECloud.js:164-183 | one `readystatechange` event delivers at most once: exactly when the state is DONE, and then the normalised response |
| Dispatcher.NothingBeforeDone | v1/FMECloud.js:164-167 | events before DONE deliver nothing |
| Dispatcher.ExactlyOnce | v1/FMECloud.js:164-183 | over a well-formed event sequence, a completed request delivers exactly once, the normalised response of the DONE event; a pending one delivers nothing |
| Dispatcher.DeliveredOnce | v1.2/FMECloud.js:109-146 | a call that throws sends and delivers nothing; a v1 cross-domain call delivers one report; a sent call delivers once when completed and not before |
| Endpoints.Call | v1.2/FMECloud.js:194-294 | calling an operation sends exactly outside cross-domain mode and, in v1.2, with a callback function, and then sends the request built from the operation's URL template, verb, payload and content type; v1 in cross-domain mode reports; v1.2 throws the callback message first, then the CORS message |
| Endpoints.EndpointUrl | v1.2/FMECloud.js:196-292 | with plain settings and id, every operation's URL is server + `/` + version + the operation's path |
| Endpoints.CallGuards | v1.2/FMECloud.js:205-208 | an operation sends exactly outside cross-domain mode and, in v1.2, with a callback function; v1 otherwise reports, v1.2 without a callback throws |
| Endpoints.LifecycleIsPut | v1.2/FMECloud.js:205-242 | pause/start/restart/terminate send a PUT without body or Content-type, with the default Accept, to server/version/`instances/<id>/<action>` |
| Endpoints.ReadIsGet | v1.2/FMECloud.js:248-294 | the list/get/credentials/balance/versions operations send a GET without body or Content-type to server/version + path |
| Endpoints.LaunchIsFormPost | v1.2/FMECloud.js:194-198 | launching sends a form-urlencoded POST to server/version/`instances`, with the parameters as body, or no body when they are falsy |
| Endpoints.DefaultInstancesUrl | v1.2/FMECloud.js:248-251 | on the default v1.2 configuration, listing instances requests `https://api.fmecloud.safe.com/v1/instances` |
| Endpoints.SendsBeforeInit | v1.2/FMECloud.js:117-119 | before `init`, `checkConfig` would throw, yet an operation with a callback still sends, with `Authorization: Bearer undefined` |

## Left out

- `FMEServer.js` is not part of this model. It is I/O plumbing (jQuery calls and a WebSocket handshake).
- The XMLHttpRequest transport, asynchronous scheduling and ordering between concurrent requests. Completion is the trace of `readystatechange` events.
- `JSON.parse` itself: it is a parameter.
- `req.response` (delivered when parsing throws) is taken to equal `responseText`.
- `console.log` / `alert` logging of the v1 missing-token error. The v1 constructor returns `null` in that case, which `new` discards; the model gives the failure instead of a half-built object.
- Attaching the operations to the prototype (`_init`), the module closure, and the v1 `_returnObj` default callback. In v1 the dispatcher always receives a wrapper function, so the model passes "is a function" for v1.
- Mutation through the object `_config()` / `getConfig()` returns. Settings are an input value, and `Init` returns the updated settings.
- Config.GetConfig: names inherited from `Object.prototype` (`toString` and the like) answer `undefined` in the model, not the inherited property.
- Polyfills.IndexOf: covers integer starts only. A fractional, `NaN` or non-numeric `start`, and the `undefined` holes of sparse arrays, are not modelled, and neither is searching for `undefined` with a negative start (see Polyfills.FirstMatch).
- JsReplace.Substitute: `$n` and `$<name>` stay literal. The patterns have no capture groups, and ECMA-262 leaves them literal then.
- Polyfills.FirstMatch: assumes `obj` is not `undefined`. Searching for `undefined` with a negative start, the polyfill answers the negative start itself, since `this[start] === undefined` holds there; the model's indices below zero match nothing.
- Polyfills.FirstMatchBelowZero: holds only for an `obj` other than `undefined`, for the same reason.
- Polyfills.PolyfillIgnoresNegativeStart: holds only for an `obj` other than `undefined`, for the same reason.
- Text.Split: models a non-empty string separator only. The client splits on `//` and `/`.
- Strings are sequences of Dafny `char`, not UTF-16 code units; `trim`'s white-space set is the ECMA-262 `\s` set over those characters.
- The browser detection values (`location.host`, `navigator.appName`, `navigator.appVersion`) are inputs, not read from a browser.

## Findings

| source | as written | input that shows it | evidently intended | confidence | as-written member | corrected member |
|---|---|---|---|---|---|---|
| v1/FMECloud.js:69 | the polyfill starts its scan at `start`, or 0 when `start` is falsy; a negative start reads indices below zero, which match no `obj` other than `undefined`, so it behaves as a start of 0 | `[3, 1, 3].indexOf(3, -1)` answers 0 | ECMA-262 (edition 5.1, section 15.4.4.14): a negative start counts back from the end, so the answer is 2 | not executed; high, by reading the code against the standard | Polyfills.IndexOf, Polyfills.NegativeStartDiffers | Polyfills.NativeIndexOf |

=== FILE: config.dfy ===
/**
 * The client's configuration object: its defaults, `_config` (v1) and
 * `getConfig` (v1.2), the token checks made when a connection is created
 * (v1 constructor) or initialised (v1.2 `init`), `checkConfig` (v1.2) and
 * the test that puts Internet Explorer 8 and 9 into cross-domain mode.
 */
module Config {
  import opened Wrappers
  import opened Text

  /** The two revisions of the cloud client. */
  datatype Revision = V1 | V1_2

  /**
   * The configuration object. `token` is `None` while it is unset (v1.2
   * before `init`); `xdomain` marks the IE8/IE9 cross-domain mode.
   */
  datatype Settings = Settings(version: string, server: string, token: Option<string>, xdomain: bool)

  const ApiVersion := "v1"

  const Scheme := "https://"

  /** The API host each revision talks to by default. */
  function DefaultHostName(rev: Revision): string {
    match rev
    case V1 => "api.fmecloud.com"
    case V1_2 => "api.fmecloud.safe.com"
  }

  /** `https://api.fmecloud.com` (v1) and `https://api.fmecloud.safe.com` (v1.2). */
  function DefaultServer(rev: Revision): string {
    Scheme + DefaultHostName(rev)
  }

  /** The characters the proofs about the defaults care about are absent from them. */
  lemma DefaultTextsPlain(rev: Revision)
    ensures '/' !in DefaultHostName(rev) && '$' !in DefaultHostName(rev) && '{' !in DefaultHostName(rev)
    ensures '$' !in Scheme && '{' !in Scheme
  {
    var h := DefaultHostName(rev);
    forall k | 0 <= k < |h| ensures h[k] != '/' && h[k] != '$' && h[k] != '{' {
      assert 'a' <= h[k] <= 'z' || h[k] == '.';
    }
    forall k | 0 <= k < |Scheme| ensures Scheme[k] != '$' && Scheme[k] != '{' {
      assert 'a' <= Scheme[k] <= 'z' || Scheme[k] == ':' || Scheme[k] == '/';
    }
  }

  /** The v1.2 library-wide configuration before `init` runs. */
  function Initial(): (cfg: Settings)
    ensures cfg.token.None? && !cfg.xdomain
  {
    Settings(ApiVersion, DefaultServer(V1_2), None, false)
  }

  const NoTokenV1 := "FMECloud.js Error.  You did not specify a token in your configuration paramaters."
  const NoTokenV1_2 := "You did not specify a token in your configuration paramaters."
  const NotInitialised := "You must initialize FMECloud using the FMECloud.init() method."
  /**
   * Stands in for the engine-specific TypeError message raised when
   * `split('/')` is called on `undefined`; engines word it differently.
   */
  const HostTypeError := "TypeError: cannot read property 'split' of undefined"
  const InternetExplorer := "Microsoft Internet Explorer"

  /** The parts of the browser environment the cross-domain test reads. */
  datatype Browser = Browser(locationHost: string, appName: string, appVersion: string)

  const Msie9 := "MSIE 9"
  const Msie8 := "MSIE 8"

  /** `navigator` reports Internet Explorer 8 or 9. */
  predicate LegacyIE(b: Browser) {
    b.appName == InternetExplorer && (Contains(b.appVersion, Msie9) || Contains(b.appVersion, Msie8))
  }

  /**
   * The browser test holds exactly for the Internet Explorer application
   * name together with a version text in which `MSIE 9` or `MSIE 8` occurs
   * somewhere (`indexOf(...) !== -1`).
   */
  lemma LegacyIEIff(b: Browser)
    ensures LegacyIE(b) <==>
      && b.appName == InternetExplorer
      && ((exists i :: OccursAt(b.appVersion, Msie9, i)) || (exists i :: OccursAt(b.appVersion, Msie8, i)))
  {
    ContainsIff(b.appVersion, Msie9);
    ContainsIff(b.appVersion, Msie8);
  }

  /**
   * `server.split('//')[1].split('/')[0]`: the text after the first `//`
   * up to the next `/` or the end. `None` when `server` has no `//`: then
   * `[1]` is `undefined` and the second `split` throws.
   */
  function HostOf(server: string): (h: Option<string>)
    ensures h.Some? <==> Contains(server, "//")
    ensures h.Some? ==> '/' !in h.value
    ensures h.Some? ==>
      var start := FindFrom(server, "//", 0).value + 2;
      && start + |h.value| <= |server|
      && server[start..start + |h.value|] == h.value
      && (start + |h.value| == |server| || server[start + |h.value|] == '/')
  {
    var parts := Split(server, "//");
    if |parts| < 2 then None
    else
      HostOfShape(server);
      Some(Split(parts[1], "/")[0])
  }

  lemma HostOfShape(server: string)
    requires Contains(server, "//")
    ensures var h := Split(Split(server, "//")[1], "/")[0];
      var start := FindFrom(server, "//", 0).value + 2;
      && '/' !in h
      && start + |h| <= |server|
      && server[start..start + |h|] == h
      && (start + |h| == |server| || server[start + |h|] == '/')
  {
    var start := FindFrom(server, "//", 0).value + 2;
    var end := SecondPiece(server);
    var piece := server[start..end];
    assert Split(server, "//")[1] == piece;
    var m := FirstPiece(piece);
    SliceOfSlice(server, start, end, m);
    if m < |piece| {
      assert server[start + m] == piece[m];
    } else {
      assert start + m == end;
    }
  }

  /** A prefix of a slice is a slice of the whole. */
  lemma SliceOfSlice(s: string, lo: nat, hi: nat, m: nat)
    requires lo <= hi <= |s| && m <= hi - lo
    ensures s[lo..hi][..m] == s[lo..lo + m]
  {
  }

  /**
   * The second piece of `server.split('//')` runs from just after the
   * first `//` to an index `end` that is the end of `server` or a `/`.
   */
  lemma SecondPiece(server: string) returns (end: nat)
    requires Contains(server, "//")
    ensures var start := FindFrom(server, "//", 0).value + 2;
      && start <= end <= |server|
      && Split(server, "//")[1] == server[start..end]
      && (end == |server| || server[end] == '/')
  {
    end := SecondPieceOf(server, "//");
    if end < |server| {
      assert server[end..end + 2][0] == server[end];
    }
  }

  /** The first piece of `piece.split('/')` is everything before the first `/`. */
  lemma FirstPiece(piece: string) returns (m: nat)
    ensures m <= |piece|
    ensures Split(piece, "/")[0] == piece[..m]
    ensures '/' !in piece[..m]
    ensures m == |piece| || piece[m] == '/'
  {
    m := LeadingPiece(piece, "/", 0);
    assert piece[0..m] == piece[..m];
    NoOccurrenceChar(piece[..m], '/');
    OccursAtChar(piece, '/', m);
  }

  /** Both default servers name their host after `https://`. */
  lemma DefaultHosts()
    ensures HostOf(DefaultServer(V1)) == Some(DefaultHostName(V1))
    ensures HostOf(DefaultServer(V1_2)) == Some(DefaultHostName(V1_2))
  {
    DefaultTextsPlain(V1);
    DefaultHost(DefaultHostName(V1));
    DefaultTextsPlain(V1_2);
    DefaultHost(DefaultHostName(V1_2));
  }

  /** A server written `https://` followed by a host without `/` has that host. */
  lemma DefaultHost(host: string)
    requires '/' !in host
    ensures HostOf(Scheme + host) == Some(host)
  {
    var server := Scheme + host;
    assert OccursAt(server, "//", 6);
    forall k | 0 <= k < 6
      ensures !OccursAt(server, "//", k)
    {
      assert server[k] == Scheme[k];
    }
    assert FindFrom(server, "//", 0) == Some(6);
    assert server[8..] == host;
    assert server[8..8 + |host|] == host;
  }

  /**
   * The IE8/IE9 test: the page is served from another host than the
   * configured server and the browser is IE 8 or 9. It throws when the
   * server has no `//`.
   */
  function CrossDomain(server: string, b: Browser): (r: Result<bool, string>)
    ensures r.Failure? <==> !Contains(server, "//")
    ensures r.Success? ==> (r.value <==> b.locationHost != HostOf(server).value && LegacyIE(b))
  {
    match HostOf(server)
    case None => Failure(HostTypeError)
    case Some(host) => Success(b.locationHost != host && LegacyIE(b))
  }

  /**
   * The v1 constructor `new FMECloud(token)`. Without a token it logs an
   * error and gives no usable connection; otherwise the connection holds
   * the token, the default server and version, and is in cross-domain mode
   * exactly for IE 8 or 9 on a page not served from the API host.
   */
  function Construct(token: Option<string>, b: Browser): (r: Result<Settings, string>)
    ensures r.Failure? <==> token.None?
    ensures r.Failure? ==> r.error == NoTokenV1
    ensures r.Success? ==> r.value.token == token && r.value.server == DefaultServer(V1) && r.value.version == ApiVersion
    ensures r.Success? ==> (r.value.xdomain <==> b.locationHost != DefaultHostName(V1) && LegacyIE(b))
  {
    if token.None? then Failure(NoTokenV1)
    else
      DefaultHosts();
      var cfg := Settings(ApiVersion, DefaultServer(V1), token, false);
      match CrossDomain(cfg.server, b)
      case Failure(e) => Failure(e)
      case Success(cd) => Success(cfg.(xdomain := cd))
  }

  /** The configuration after `init`, and the message it threw, if any. */
  datatype InitOutcome = InitOutcome(config: Settings, thrown: Option<string>)

  /**
   * v1.2 `init(token)`: throws, changing nothing, when the token is
   * undefined; otherwise stores it, then runs the cross-domain test, which
   * can only switch cross-domain mode on and which throws (after the token
   * is stored) when the server has no `//`.
   */
  function Init(cfg: Settings, token: Option<string>, b: Browser): (r: InitOutcome)
    ensures token.None? ==> r.config == cfg && r.thrown == Some(NoTokenV1_2)
    ensures token.Some? ==> r.config.token == token
    ensures r.config.server == cfg.server && r.config.version == cfg.version
    ensures r.thrown.None? <==> token.Some? && Contains(cfg.server, "//")
    ensures cfg.xdomain ==> r.config.xdomain
    ensures r.config.xdomain && !cfg.xdomain ==> r.thrown.None? && LegacyIE(b)
    ensures token.Some? && Contains(cfg.server, "//") ==>
      (r.config.xdomain <==> cfg.xdomain || (b.locationHost != HostOf(cfg.server).value && LegacyIE(b)))
  {
    if token.None? then InitOutcome(cfg, Some(NoTokenV1_2))
    else
      var stored := cfg.(token := token);
      match CrossDomain(cfg.server, b)
      case Failure(e) => InitOutcome(stored, Some(e))
      case Success(cd) => InitOutcome(stored.(xdomain := cfg.xdomain || cd), None)
  }

  /** A value read out of the configuration object. */
  datatype Entry = Str(text: string) | Flag(flag: bool) | Undefined

  /** What `_config(param)` / `getConfig(param)` returns. */
  datatype Answer = Whole(settings: Settings) | Field(entry: Entry)

  /**
   * `_config(param)` (v1) and `getConfig(param)` (v1.2): the whole object
   * for a falsy name, otherwise the named entry, `undefined` for a name
   * the object does not hold.
   */
  function GetConfig(cfg: Settings, param: Option<string>): (r: Answer)
    ensures Falsy(param) <==> r.Whole?
    ensures r.Whole? ==> r.settings == cfg
    ensures param == Some("server") ==> r == Field(Str(cfg.server))
    ensures param == Some("version") ==> r == Field(Str(cfg.version))
    ensures param == Some("xdomain") ==> r == Field(Flag(cfg.xdomain))
    ensures param == Some("token") ==> r == Field(if cfg.token.Some? then Str(cfg.token.value) else Undefined)
    ensures !Falsy(param) && param.value !in ["server", "version", "xdomain", "token"] ==> r == Field(Undefined)
  {
    if Falsy(param) then Whole(cfg)
    else if param.value == "server" then Field(Str(cfg.server))
    else if param.value == "version" then Field(Str(cfg.version))
    else if param.value == "xdomain" then Field(Flag(cfg.xdomain))
    else if param.value == "token" then
      Field(if cfg.token.Some? then Str(cfg.token.value) else Undefined)
    else Field(Undefined)
  }

  /** JavaScript truthiness of an entry, as an `if` tests it; a string is truthy exactly when it is not `Falsy`. */
  predicate Truthy(e: Entry) {
    match e
    case Str(t) => !Falsy(Some(t))
    case Flag(f) => f
    case Undefined => false
  }

  /** An entry as string concatenation renders it (`'Bearer ' + entry`). */
  function ToJsString(e: Entry): string {
    match e
    case Str(t) => t
    case Flag(f) => if f then "true" else "false"
    case Undefined => "undefined"
  }

  /** v1.2 `checkConfig()`: true when the token is set and non-empty, a throw otherwise. */
  function CheckConfig(cfg: Settings): (r: Result<bool, string>)
    ensures r.Success? <==> cfg.token.Some? && cfg.token.value != ""
    ensures r.Success? ==> r.value
    ensures r.Failure? ==> r.error == NotInitialised
  {
    if cfg.token.Some? && cfg.token.value != "" then Success(true) else Failure(NotInitialised)
  }

  /**
   * `checkConfig` tests the `token` member of the whole object that
   * `getConfig()` returns: it succeeds exactly when that member is truthy.
   */
  lemma CheckReadsToken(cfg: Settings)
    ensures GetConfig(cfg, None).Whole?
    ensures CheckConfig(cfg).Success? <==> !Falsy(GetConfig(cfg, None).settings.token)
  {
  }

  /**
   * After `init(token)` with a defined token, `checkConfig` succeeds
   * exactly when the token is non-empty, whether or not the cross-domain
   * test threw.
   */
  lemma InitThenCheck(cfg: Settings, token: string, b: Browser)
    ensures CheckConfig(Init(cfg, Some(token), b).config).Success? <==> token != ""
  {
  }

  /** An `init` without a token leaves `checkConfig`'s answer as it was. */
  lemma InitWithoutToken(cfg: Settings, b: Browser)
    ensures CheckConfig(Init(cfg, None, b).config) == CheckConfig(cfg)
  {
  }

  /** Before any `init`, `checkConfig` throws. */
  lemma CheckBeforeInit()
    ensures CheckConfig(Initial()).Failure?
  {
  }
}

=== FILE: dispatcher.dfy ===
/**
 * The request dispatcher `_ajax` (v1) / `ajax` (v1.2): the request it
 * builds, the guards that stop it, the normalisation of the response and
 * the single delivery to the caller's callback.
 *
 * The transport is reduced to the sequence of states the
 * `readystatechange` handler observes, and `JSON.parse` to a parameter
 * `parse` that yields `None` where the real parser throws.
 */
module Dispatcher {
  import opened Wrappers
  import opened Text
  import opened Config

  datatype Header = Header(name: string, value: string)

  /** A request as the transport receives it from `open`, `setRequestHeader` and `send`. */
  datatype Request = Request(verb: string, url: string, headers: seq<Header>, body: Option<string>)

  /** The value of the first header named `name`. */
  function HeaderValue(headers: seq<Header>, name: string): (v: Option<string>)
    ensures v.None? <==> forall k :: 0 <= k < |headers| ==> headers[k].name != name
    ensures v.Some? ==>
      exists k :: 0 <= k < |headers| && headers[k] == Header(name, v.value) && forall j :: 0 <= j < k ==> headers[j].name != name
  {
    if |headers| == 0 then None
    else if headers[0].name == name then Some(headers[0].value)
    else HeaderValue(headers[1..], name)
  }

  const AcceptHeader := "Accept"
  const AuthorizationHeader := "Authorization"
  const ContentTypeHeader := "Content-type"

  /** The Accept value used when the caller gives none. */
  function DefaultAccept(rev: Revision): string {
    match rev
    case V1 => "json"
    case V1_2 => "application/json"
  }

  /** `'Bearer ' + token`; an unset token is converted to the text `undefined`. */
  function Bearer(token: Option<string>): string {
    "Bearer " + token.GetOr("undefined")
  }

  /**
   * The request `_ajax` / `ajax` sends. The method defaults to GET and the
   * Accept value to the revision's default; the Authorization header
   * always carries the bearer token; Content-type is set exactly when a
   * content type is given, and no other header is set. A falsy payload is
   * sent as no body.
   */
  function BuildRequest(rev: Revision, cfg: Settings, url: string, rtyp: Option<string>,
                        params: Option<string>, ctyp: Option<string>, atyp: Option<string>): (r: Request)
    ensures r.url == url
    ensures Falsy(rtyp) ==> r.verb == "GET"
    ensures !Falsy(rtyp) ==> r.verb == rtyp.value
    ensures Falsy(atyp) ==> HeaderValue(r.headers, AcceptHeader) == Some(DefaultAccept(rev))
    ensures !Falsy(atyp) ==> HeaderValue(r.headers, AcceptHeader) == atyp
    ensures HeaderValue(r.headers, AuthorizationHeader) == Some("Bearer " + cfg.token.GetOr("undefined"))
    ensures Falsy(ctyp) ==> HeaderValue(r.headers, ContentTypeHeader).None?
    ensures !Falsy(ctyp) ==> HeaderValue(r.headers, ContentTypeHeader) == ctyp
    ensures forall k :: 0 <= k < |r.headers| ==> r.headers[k].name in [AcceptHeader, AuthorizationHeader, ContentTypeHeader]
    ensures forall i, j :: 0 <= i < j < |r.headers| ==> r.headers[i].name != r.headers[j].name
    ensures Falsy(params) ==> r.body.None?
    ensures !Falsy(params) ==> r.body == params
  {
    var headers := RequestHeaders(OrElse(atyp, DefaultAccept(rev)), Bearer(cfg.token), ctyp);
    Request(OrElse(rtyp, "GET"), url, headers, if Falsy(params) then None else params)
  }

  /** Looking a name up in a list with a known first header. */
  lemma HeaderValueCons(h: Header, rest: seq<Header>, name: string)
    ensures HeaderValue([h] + rest, name) == if h.name == name then Some(h.value) else HeaderValue(rest, name)
  {
    assert ([h] + rest)[1..] == rest;
  }

  /** Accept, then Authorization, then Content-type when one is given. */
  function RequestHeaders(accept: string, auth: string, ctyp: Option<string>): (hs: seq<Header>)
    ensures HeaderValue(hs, AcceptHeader) == Some(accept)
    ensures HeaderValue(hs, AuthorizationHeader) == Some(auth)
    ensures HeaderValue(hs, ContentTypeHeader) == if Falsy(ctyp) then None else ctyp
    ensures forall k :: 0 <= k < |hs| ==> hs[k].name in [AcceptHeader, AuthorizationHeader, ContentTypeHeader]
    ensures forall i, j :: 0 <= i < j < |hs| ==> hs[i].name != hs[j].name
  {
    var tail := if Falsy(ctyp) then [] else [Header(ContentTypeHeader, ctyp.value)];
    var second := [Header(AuthorizationHeader, auth)] + tail;
    HeaderValueCons(Header(AcceptHeader, accept), second, AcceptHeader);
    HeaderValueCons(Header(AcceptHeader, accept), second, AuthorizationHeader);
    HeaderValueCons(Header(AcceptHeader, accept), second, ContentTypeHeader);
    HeaderValueCons(Header(AuthorizationHeader, auth), tail, AuthorizationHeader);
    HeaderValueCons(Header(AuthorizationHeader, auth), tail, ContentTypeHeader);
    assert HeaderValue(tail, ContentTypeHeader) == if Falsy(ctyp) then None else ctyp by {
      if !Falsy(ctyp) {
        HeaderValueCons(Header(ContentTypeHeader, ctyp.value), [], ContentTypeHeader);
        assert [Header(ContentTypeHeader, ctyp.value)] + [] == tail;
      }
    }
    var hs := [Header(AcceptHeader, accept)] + second;
    HeaderNames(accept, auth, tail, hs);
    hs
  }

  /** Accept, Authorization and at most a Content-type: known names, each once. */
  lemma HeaderNames(accept: string, auth: string, tail: seq<Header>, hs: seq<Header>)
    requires |tail| <= 1 && (|tail| == 1 ==> tail[0].name == ContentTypeHeader)
    requires hs == [Header(AcceptHeader, accept)] + ([Header(AuthorizationHeader, auth)] + tail)
    ensures forall k :: 0 <= k < |hs| ==> hs[k].name in [AcceptHeader, AuthorizationHeader, ContentTypeHeader]
    ensures forall i, j :: 0 <= i < j < |hs| ==> hs[i].name != hs[j].name
  {
    HeaderNamesDiffer();
    assert |hs| == 2 + |tail| && hs[0].name == AcceptHeader && hs[1].name == AuthorizationHeader;
    assert |tail| == 1 ==> hs[2].name == ContentTypeHeader;
  }

  /** The three header names are distinct. */
  lemma HeaderNamesDiffer()
    ensures AcceptHeader != AuthorizationHeader && AcceptHeader != ContentTypeHeader
    ensures AuthorizationHeader != ContentTypeHeader
  {
    assert AcceptHeader[1] != AuthorizationHeader[1];
    assert AcceptHeader[0] != ContentTypeHeader[0];
    assert AuthorizationHeader[0] != ContentTypeHeader[0];
  }

  const CorsMessage := "FMECloud.js Error.  IE8 and IE9 do not support the custom headers required for Cloud CORS requests.  Browser Not Supported."
  const CorsThrown := "IE8 and IE9 do not support the custom headers required for Cloud CORS requests.  Browser Not Supported."
  const CallbackThrown := "A callback function must be defined in order to use the FME Cloud REST API."

  /** The error object v1 hands to the callback in cross-domain mode. */
  datatype CorsReport = CorsReport(error: string, url: string, requestType: string, parameters: Option<string>,
                                   serviceMessage: string, serviceUrl: string)

  /** What a call to the dispatcher does before any response exists. */
  datatype Dispatch =
    | Thrown(message: string)    // v1.2 guard clauses
    | Refused(report: CorsReport)  // v1 cross-domain mode: the callback gets the report, nothing is sent
    | Sent(request: Request)

  /**
   * `_ajax` (v1) / `ajax` (v1.2). v1.2 throws, before anything is sent,
   * when the callback is not a function and then when cross-domain mode is
   * on; v1 instead hands a report naming the URL, request type and
   * parameters to the callback. Otherwise the request is sent.
   */
  function Ajax(rev: Revision, cfg: Settings, url: string, callbackIsFunction: bool, rtyp: Option<string>,
                params: Option<string>, ctyp: Option<string>, atyp: Option<string>): (d: Dispatch)
    ensures d.Sent? <==> !cfg.xdomain && (rev == V1 || callbackIsFunction)
    ensures d.Sent? ==> d.request == BuildRequest(rev, cfg, url, rtyp, params, ctyp, atyp)
    ensures d.Refused? <==> rev == V1 && cfg.xdomain
    ensures d.Refused? ==> d.report.url == url && d.report.error == CorsMessage
    ensures d.Refused? ==> d.report.requestType == BuildRequest(rev, cfg, url, rtyp, params, ctyp, atyp).verb
    ensures d.Refused? ==> d.report.parameters == BuildRequest(rev, cfg, url, rtyp, params, ctyp, atyp).body
    ensures d.Thrown? ==> rev == V1_2
    ensures rev == V1_2 && !callbackIsFunction ==> d == Thrown(CallbackThrown)
    ensures rev == V1_2 && callbackIsFunction && cfg.xdomain ==> d == Thrown(CorsThrown)
  {
    match rev
    case V1 =>
      if cfg.xdomain then
        Refused(CorsReport(CorsMessage, url, OrElse(rtyp, "GET"), if Falsy(params) then None else params,
                           "CORS Error", "/getting-started/cross-domain-requests"))
      else Sent(BuildRequest(rev, cfg, url, rtyp, params, ctyp, atyp))
    case V1_2 =>
      if !callbackIsFunction then Thrown(CallbackThrown)
      else if cfg.xdomain then Thrown(CorsThrown)
      else Sent(BuildRequest(rev, cfg, url, rtyp, params, ctyp, atyp))
  }

  /**
   * The Authorization header is `'Bearer '` followed by whatever
   * `getConfig('token')` renders as: the text `undefined` before a token
   * is stored.
   */
  lemma AuthorizationReadsToken(rev: Revision, cfg: Settings, url: string, rtyp: Option<string>,
                                params: Option<string>, ctyp: Option<string>, atyp: Option<string>)
    ensures HeaderValue(BuildRequest(rev, cfg, url, rtyp, params, ctyp, atyp).headers, AuthorizationHeader)
            == Some("Bearer " + ToJsString(GetConfig(cfg, Some("token")).entry))
  {
    var e := GetConfig(cfg, Some("token")).entry;
    assert ToJsString(e) == cfg.token.GetOr("undefined");
  }

  /** The cross-domain guard of both revisions is the truthiness of `getConfig('xdomain')`. */
  lemma GuardReadsXdomain(rev: Revision, cfg: Settings, url: string, callbackIsFunction: bool, rtyp: Option<string>,
                          params: Option<string>, ctyp: Option<string>, atyp: Option<string>)
    ensures rev == V1_2 && callbackIsFunction ==>
      (Ajax(rev, cfg, url, callbackIsFunction, rtyp, params, ctyp, atyp) == Thrown(CorsThrown)
       <==> Truthy(GetConfig(cfg, Some("xdomain")).entry))
    ensures rev == V1 ==>
      (Ajax(rev, cfg, url, callbackIsFunction, rtyp, params, ctyp, atyp).Refused?
       <==> Truthy(GetConfig(cfg, Some("xdomain")).entry))
  {
    assert Truthy(GetConfig(cfg, Some("xdomain")).entry) == cfg.xdomain;
  }

  /**
   * v1 in cross-domain mode sends nothing and hands the callback, at once
   * and once, a report naming the URL, the (defaulted) request type and
   * the parameters.
   */
  lemma CrossDomainReport(cfg: Settings, url: string, rtyp: Option<string>, params: Option<string>,
                          ctyp: Option<string>, atyp: Option<string>, trace: seq<Xhr>, parse: string -> Option<Json>)
    requires cfg.xdomain
    ensures var run := Execute(Ajax(V1, cfg, url, true, rtyp, params, ctyp, atyp), trace, parse);
      && run.sent.None? && run.thrown.None? && |run.delivered| == 1
      && run.delivered[0].Report?
      && run.delivered[0].report.url == url
      && run.delivered[0].report.requestType == OrElse(rtyp, "GET")
      && run.delivered[0].report.parameters == (if Falsy(params) then None else params)
  {
  }

  /**
   * v1.2 throws before sending anything when the callback is not a
   * function, or else when cross-domain mode is on; nothing is delivered.
   */
  lemma GuardsThrow(cfg: Settings, url: string, callbackIsFunction: bool, rtyp: Option<string>, params: Option<string>,
                    ctyp: Option<string>, atyp: Option<string>, trace: seq<Xhr>, parse: string -> Option<Json>)
    requires !callbackIsFunction || cfg.xdomain
    ensures var run := Execute(Ajax(V1_2, cfg, url, callbackIsFunction, rtyp, params, ctyp, atyp), trace, parse);
      && run.sent.None? && run.delivered == []
      && run.thrown == Some(if callbackIsFunction then CorsThrown else CallbackThrown)
  {
  }

  /** A JSON value, as `JSON.parse` produces it. */
  datatype Json =
    | JNull
    | JBool(b: bool)
    | JNumber(n: real)
    | JString(s: string)
    | JArray(items: seq<Json>)
    | JObject(members: seq<(string, Json)>)

  /** The texts substituted for an empty body, and the objects they denote. */
  const DeleteText := "{ \"delete\" : \"true\" }"
  const ValueText := "{ \"value\" : \"true\" }"
  const DeleteObject := JObject([("delete", JString("true"))])
  const ValueObject := JObject([("value", JString("true"))])

  /**
   * A parser that reads the two substituted texts as the objects they
   * spell and rejects the empty text, as `JSON.parse` does.
   */
  predicate ParsesSentinels(parse: string -> Option<Json>) {
    parse(DeleteText) == Some(DeleteObject) && parse(ValueText) == Some(ValueObject) && parse("") == None
  }

  /** What the callback receives. */
  datatype Delivery = Parsed(value: Json) | Raw(text: string) | Report(report: CorsReport)

  /** The text handed to `JSON.parse`: an empty 204 or 202 body is replaced by a sentinel. */
  function TextToParse(status: int, body: string): (t: string)
    ensures |body| > 0 ==> t == body
    ensures |body| == 0 && status == 204 ==> t == DeleteText
    ensures |body| == 0 && status == 202 ==> t == ValueText
    ensures |body| == 0 && status != 204 && status != 202 ==> t == body
  {
    if |body| == 0 && status == 204 then DeleteText
    else if |body| == 0 && status == 202 then ValueText
    else body
  }

  /**
   * The value the completed request delivers: the parsed text, or, when
   * parsing throws, the response as received. A non-empty body is parsed
   * whatever the status; with a parser that reads the sentinels, an empty
   * 204 body delivers `{ "delete" : "true" }`, an empty 202 body
   * `{ "value" : "true" }`, and any other empty body the empty text.
   */
  function Normalise(status: int, body: string, parse: string -> Option<Json>): (d: Delivery)
    ensures d.Parsed? || d.Raw?
    ensures d.Raw? ==> d.text == body
    ensures |body| > 0 && parse(body).Some? ==> d == Parsed(parse(body).value)
    ensures |body| > 0 && parse(body).None? ==> d == Raw(body)
    ensures ParsesSentinels(parse) && |body| == 0 && status == 204 ==> d == Parsed(DeleteObject)
    ensures ParsesSentinels(parse) && |body| == 0 && status == 202 ==> d == Parsed(ValueObject)
    ensures ParsesSentinels(parse) && |body| == 0 && status != 204 && status != 202 ==> d == Raw(body)
  {
    match parse(TextToParse(status, body))
    case Some(v) => Parsed(v)
    case None => Raw(body)
  }

  /** The delivery for a non-empty body does not depend on the status. */
  lemma StatusIrrelevant(s1: int, s2: int, body: string, parse: string -> Option<Json>)
    requires |body| > 0
    ensures Normalise(s1, body, parse) == Normalise(s2, body, parse)
  {
  }

  /** The transport's state when one `readystatechange` event fires. */
  datatype Xhr = Xhr(readyState: int, status: int, responseText: string)

  const Done := 4

  /** The handler delivers once for a DONE event and not at all otherwise. */
  function OnReadyStateChange(e: Xhr, parse: string -> Option<Json>): (out: seq<Delivery>)
    ensures |out| <= 1
    ensures |out| == 1 <==> e.readyState == Done
    ensures |out| == 1 ==> out[0] == Normalise(e.status, e.responseText, parse)
  {
    if e.readyState == Done then [Normalise(e.status, e.responseText, parse)] else []
  }

  /** Everything the handler delivers over a run of events. */
  function Deliveries(trace: seq<Xhr>, parse: string -> Option<Json>): seq<Delivery> {
    if |trace| == 0 then []
    else Deliveries(trace[..|trace| - 1], parse) + OnReadyStateChange(trace[|trace| - 1], parse)
  }

  /**
   * A run of events as XMLHttpRequest fires them: DONE is fired at most
   * once, as the last event.
   */
  predicate WellFormed(trace: seq<Xhr>) {
    forall k :: 0 <= k < |trace| - 1 ==> trace[k].readyState != Done
  }

  predicate Completed(trace: seq<Xhr>) {
    |trace| > 0 && trace[|trace| - 1].readyState == Done
  }

  /** Before DONE nothing is delivered. */
  lemma {:induction false} NothingBeforeDone(trace: seq<Xhr>, parse: string -> Option<Json>)
    requires forall k :: 0 <= k < |trace| ==> trace[k].readyState != Done
    ensures Deliveries(trace, parse) == []
  {
    if |trace| > 0 {
      NothingBeforeDone(trace[..|trace| - 1], parse);
    }
  }

  /**
   * A completed request delivers exactly once, the normalised response of
   * the DONE event; a pending one delivers nothing.
   */
  lemma ExactlyOnce(trace: seq<Xhr>, parse: string -> Option<Json>)
    requires WellFormed(trace)
    ensures Completed(trace) ==> Deliveries(trace, parse) == [Normalise(trace[|trace| - 1].status, trace[|trace| - 1].responseText, parse)]
    ensures !Completed(trace) ==> Deliveries(trace, parse) == []
  {
    if |trace| > 0 {
      NothingBeforeDone(trace[..|trace| - 1], parse);
    }
  }

  /** Everything one call to the dispatcher does: what was sent, what was delivered, what was thrown. */
  datatype Run = Run(sent: Option<Request>, delivered: seq<Delivery>, thrown: Option<string>)

  function Execute(d: Dispatch, trace: seq<Xhr>, parse: string -> Option<Json>): (run: Run)
    ensures d.Thrown? ==> run == Run(None, [], Some(d.message))
    ensures d.Refused? ==> run == Run(None, [Report(d.report)], None)
    ensures d.Sent? ==> run.sent == Some(d.request) && run.thrown.None?
  {
    match d
    case Thrown(m) => Run(None, [], Some(m))
    case Refused(report) => Run(None, [Report(report)], None)
    case Sent(request) => Run(Some(request), Deliveries(trace, parse), None)
  }

  /**
   * A call that does not throw delivers to its callback exactly once once
   * its request completes (at once for a v1 cross-domain report); a call
   * that throws sends nothing and delivers nothing.
   */
  lemma DeliveredOnce(d: Dispatch, trace: seq<Xhr>, parse: string -> Option<Json>)
    requires WellFormed(trace)
    ensures var run := Execute(d, trace, parse);
      && (d.Thrown? ==> run.sent.None? && |run.delivered| == 0)
      && (d.Refused? ==> run.sent.None? && |run.delivered| == 1)
      && (d.Sent? && Completed(trace) ==> |run.delivered| == 1)
      && (d.Sent? && !Completed(trace) ==> |run.delivered| == 0)
  {
    ExactlyOnce(trace, parse);
  }
}

=== FILE: endpoints.dfy ===
/**
 * The cloud operations both revisions expose: each builds its URL from a
 * `{{svr}}/{{ver}}/...` template and hands it to the dispatcher with its
 * HTTP verb, payload and content type.
 */
module Endpoints {
  import opened Wrappers
  import opened Text
  import opened Config
  import opened UrlTemplate
  import opened Dispatcher

  datatype Operation =
    | LaunchInstance(params: Option<string>)
    | PauseInstance(id: string)
    | StartInstance(id: string)
    | RestartInstance(id: string)
    | TerminateInstance(id: string)
    | GetInstances
    | GetInstance(id: string)
    | GetCredentials(id: string)
    | CheckBalance
    | GetVersions
  {
    /** The operations that change an instance's running state. */
    predicate Lifecycle() {
      PauseInstance? || StartInstance? || RestartInstance? || TerminateInstance?
    }

    /** The operations that only read. */
    predicate Read() {
      GetInstances? || GetInstance? || GetCredentials? || CheckBalance? || GetVersions?
    }

    /** The instance id the operation names, if any. */
    function Id(): Option<string> {
      if PauseInstance? || StartInstance? || RestartInstance? || TerminateInstance?
         || GetInstance? || GetCredentials? then Some(id)
      else None
    }
  }

  /** The action segment a lifecycle operation appends to `instances/<id>`. */
  function Action(op: Operation): string
    requires op.Lifecycle()
  {
    match op
    case PauseInstance(_) => "pause"
    case StartInstance(_) => "start"
    case RestartInstance(_) => "restart"
    case TerminateInstance(_) => "terminate"
  }

  /** The part of the template after `{{svr}}/{{ver}}`. */
  function Path(op: Operation): string {
    if op.Lifecycle() then "/instances/" + op.id + "/" + Action(op)
    else match op
    case LaunchInstance(_) => "/instances"
    case GetInstances => "/instances"
    case GetInstance(id) => "/instances/" + id
    case GetCredentials(id) => "/instances/" + id + "/credentials"
    case CheckBalance => "/account/balance"
    case GetVersions => "/fme_server_version.json"
  }

  function Template(op: Operation): string {
    ServerMark + "/" + VersionMark + Path(op)
  }

  /** The verb the operation passes; the reads pass none and get the default. */
  function Verb(op: Operation): Option<string> {
    match op
    case LaunchInstance(_) => Some("POST")
    case PauseInstance(_) => Some("PUT")
    case StartInstance(_) => Some("PUT")
    case RestartInstance(_) => Some("PUT")
    case TerminateInstance(_) => Some("PUT")
    case _ => None
  }

  const FormContentType := "application/x-www-form-urlencoded"

  function ContentType(op: Operation): Option<string> {
    if op.LaunchInstance? then Some(FormContentType) else None
  }

  function Payload(op: Operation): Option<string> {
    if op.LaunchInstance? then op.params else None
  }

  /**
   * Calling the operation. The v1 methods always hand the dispatcher a
   * function; the v1.2 methods hand on the caller's callback, or `null`.
   */
  function Call(rev: Revision, cfg: Settings, op: Operation, callbackIsFunction: bool): (d: Dispatch)
    ensures d.Sent? <==> !cfg.xdomain && (rev == V1 || callbackIsFunction)
    ensures d.Sent? ==>
      d.request == BuildRequest(rev, cfg, BuildUrl(Template(op), cfg), Verb(op), Payload(op), ContentType(op), None)
    ensures d.Refused? <==> rev == V1 && cfg.xdomain
    ensures rev == V1_2 && !callbackIsFunction ==> d == Thrown(CallbackThrown)
    ensures rev == V1_2 && callbackIsFunction && cfg.xdomain ==> d == Thrown(CorsThrown)
  {
    Ajax(rev, cfg, BuildUrl(Template(op), cfg), rev == V1 || callbackIsFunction,
         Verb(op), Payload(op), ContentType(op), None)
  }

  /** A sent call carries the request the dispatcher builds from the operation's table entry. */
  lemma SentRequest(rev: Revision, cfg: Settings, op: Operation, callbackIsFunction: bool)
    requires !cfg.xdomain && (rev == V1 || callbackIsFunction)
    ensures Call(rev, cfg, op, callbackIsFunction).Sent?
    ensures Call(rev, cfg, op, callbackIsFunction).request
         == BuildRequest(rev, cfg, BuildUrl(Template(op), cfg), Verb(op), Payload(op), ContentType(op), None)
  {
  }

  /** An id that holds no placeholder of its own. */
  predicate PlainOperation(op: Operation) {
    op.Id().Some? ==> PlaceholderFree(op.Id().value)
  }

  /**
   * With plain settings and id, each operation's URL is the server, `/`,
   * the version and the operation's path, which is `/instances/<id>/<action>`
   * for the lifecycle operations.
   */
  lemma EndpointUrl(cfg: Settings, op: Operation)
    requires PlainSettings(cfg) && PlainOperation(op)
    ensures BuildUrl(Template(op), cfg) == cfg.server + "/" + cfg.version + Path(op)
  {
    PathIsPlain(op);
    ApiPath(cfg, Path(op));
  }

  /** Every path starts with `/` and, for a plain id, holds no placeholder. */
  lemma PathIsPlain(op: Operation)
    requires PlainOperation(op)
    ensures PlaceholderFree(Path(op)) && |Path(op)| > 0 && Path(op)[0] == '/'
  {
    if op.Lifecycle() {
      assert '{' !in "/" + Action(op);
      IdPath(op.id, "/" + Action(op));
      assert Path(op) == "/instances/" + op.id + ("/" + Action(op));
    } else {
      ReadPathIsPlain(op);
    }
  }

  lemma ReadPathIsPlain(op: Operation)
    requires !op.Lifecycle() && PlainOperation(op)
    ensures PlaceholderFree(Path(op)) && |Path(op)| > 0 && Path(op)[0] == '/'
  {
    match op {
      case LaunchInstance(_) => WithoutBrace("/instances");
      case GetInstances => WithoutBrace("/instances");
      case GetInstance(id) =>
        WithoutBrace("/instances/");
        PlaceholderFreeConcat("/instances/", id);
      case GetCredentials(id) => IdPath(id, "/credentials");
      case CheckBalance => WithoutBrace("/account/balance");
      case GetVersions => WithoutBrace("/fme_server_version.json");
    }
  }

  lemma IdPath(id: string, suffix: string)
    requires PlaceholderFree(id) && '{' !in suffix && |suffix| > 0 && suffix[0] == '/'
    ensures PlaceholderFree("/instances/" + id + suffix)
  {
    WithoutBrace("/instances/");
    WithoutBrace(suffix);
    PlaceholderFreeConcat("/instances/", id);
    PlaceholderFreeConcat("/instances/" + id, suffix);
  }

  /**
   * Whether a call sends: v1 unless in cross-domain mode (then the callback
   * gets the report), v1.2 only with a callback function and outside
   * cross-domain mode (otherwise it throws).
   */
  lemma CallGuards(rev: Revision, cfg: Settings, op: Operation, callbackIsFunction: bool)
    ensures Call(rev, cfg, op, callbackIsFunction).Sent? <==> !cfg.xdomain && (rev == V1 || callbackIsFunction)
    ensures rev == V1 && cfg.xdomain ==> Call(rev, cfg, op, callbackIsFunction).Refused?
    ensures rev == V1_2 && !callbackIsFunction ==> Call(rev, cfg, op, callbackIsFunction) == Thrown(CallbackThrown)
  {
  }

  /**
   * The lifecycle operations send a PUT with no body and no Content-type
   * to `instances/<id>/<action>`.
   */
  lemma LifecycleIsPut(rev: Revision, cfg: Settings, op: Operation, callbackIsFunction: bool)
    requires op.Lifecycle()
    requires !cfg.xdomain && (rev == V1 || callbackIsFunction)
    ensures Call(rev, cfg, op, callbackIsFunction).Sent?
    ensures var r := Call(rev, cfg, op, callbackIsFunction).request;
      && r.verb == "PUT"
      && r.body.None?
      && HeaderValue(r.headers, ContentTypeHeader).None?
      && HeaderValue(r.headers, AcceptHeader) == Some(DefaultAccept(rev))
      && (PlainSettings(cfg) && PlainOperation(op) ==>
            r.url == cfg.server + "/" + cfg.version + ("/instances/" + op.id + "/" + Action(op)))
  {
    SentRequest(rev, cfg, op, callbackIsFunction);
    var url := BuildUrl(Template(op), cfg);
    assert Verb(op) == Some("PUT") && Payload(op).None? && ContentType(op).None?;
    var r := BuildRequest(rev, cfg, url, Some("PUT"), None, None, None);
    assert Call(rev, cfg, op, callbackIsFunction).request == r;
    if PlainSettings(cfg) && PlainOperation(op) {
      EndpointUrl(cfg, op);
    }
  }

  /** The reads send a GET with no body and no Content-type. */
  lemma ReadIsGet(rev: Revision, cfg: Settings, op: Operation, callbackIsFunction: bool)
    requires op.Read()
    requires !cfg.xdomain && (rev == V1 || callbackIsFunction)
    ensures Call(rev, cfg, op, callbackIsFunction).Sent?
    ensures var r := Call(rev, cfg, op, callbackIsFunction).request;
      && r.verb == "GET"
      && r.body.None?
      && HeaderValue(r.headers, ContentTypeHeader).None?
      && (PlainSettings(cfg) && PlainOperation(op) ==> r.url == cfg.server + "/" + cfg.version + Path(op))
  {
    SentRequest(rev, cfg, op, callbackIsFunction);
    if PlainSettings(cfg) && PlainOperation(op) {
      EndpointUrl(cfg, op);
    }
  }

  /** Launching sends a form-encoded POST of the parameters to `instances`. */
  lemma LaunchIsFormPost(rev: Revision, cfg: Settings, params: Option<string>, callbackIsFunction: bool)
    requires !cfg.xdomain && (rev == V1 || callbackIsFunction)
    ensures Call(rev, cfg, LaunchInstance(params), callbackIsFunction).Sent?
    ensures var r := Call(rev, cfg, LaunchInstance(params), callbackIsFunction).request;
      && r.verb == "POST"
      && HeaderValue(r.headers, ContentTypeHeader) == Some(FormContentType)
      && (Falsy(params) ==> r.body.None?)
      && (!Falsy(params) ==> r.body == params)
      && (PlainSettings(cfg) ==> r.url == cfg.server + "/" + cfg.version + "/instances")
  {
    var op := LaunchInstance(params);
    SentRequest(rev, cfg, op, callbackIsFunction);
    var url := BuildUrl(Template(op), cfg);
    assert Verb(op) == Some("POST") && Payload(op) == params && ContentType(op) == Some(FormContentType);
    assert Call(rev, cfg, op, callbackIsFunction).request
        == BuildRequest(rev, cfg, url, Some("POST"), params, Some(FormContentType), None);
    if PlainSettings(cfg) {
      LaunchUrl(cfg, params);
    }
  }

  lemma LaunchUrl(cfg: Settings, params: Option<string>)
    requires PlainSettings(cfg)
    ensures BuildUrl(Template(LaunchInstance(params)), cfg) == cfg.server + "/" + cfg.version + "/instances"
  {
    EndpointUrl(cfg, LaunchInstance(params));
  }

  /**
   * On the default v1.2 configuration after `init`, listing instances
   * requests the default server, `/v1` and `/instances`.
   */
  lemma DefaultInstancesUrl(cfg: Settings)
    requires cfg.server == DefaultServer(V1_2) && cfg.version == ApiVersion
    requires !cfg.xdomain
    ensures Call(V1_2, cfg, GetInstances, true).Sent?
    ensures Call(V1_2, cfg, GetInstances, true).request.url == DefaultServer(V1_2) + "/" + ApiVersion + "/instances"
  {
    DefaultsArePlain(V1_2, cfg.token, cfg.xdomain);
    EndpointUrl(cfg, GetInstances);
    SentRequest(V1_2, cfg, GetInstances, true);
  }

  /**
   * The v1.2 methods never call `checkConfig`: before `init` a call with a
   * callback still sends, with the Authorization value `Bearer undefined`,
   * although `checkConfig` would throw.
   */
  lemma SendsBeforeInit(cfg: Settings, op: Operation)
    requires cfg == Initial()
    ensures CheckConfig(cfg).Failure?
    ensures Call(V1_2, cfg, op, true).Sent?
    ensures HeaderValue(Call(V1_2, cfg, op, true).request.headers, AuthorizationHeader) == Some("Bearer " + "undefined")
  {
    SentRequest(V1_2, cfg, op, true);
  }
}

=== FILE: js_replace.dfy ===
/**
 * `String.prototype.replace` called with a global regular expression whose
 * source is a literal text (no metacharacters, no capture groups), as the
 * client's URL templating uses it: every leftmost non-overlapping match is
 * replaced, and `$` sequences in the replacement text are expanded.
 */
module JsReplace {
  import opened Wrappers
  import opened Text

  /**
   * The text inserted for one match, as the GetSubstitution operation of
   * ECMA-262 expands a replacement for a pattern without capture groups:
   * `$$` gives `$`, `$&` the matched text, `` $` `` the text before the
   * match and `$'` the text after it; any other `$` stays literal.
   */
  function Substitute(rep: string, matched: string, pre: string, post: string): (r: string)
    decreases |rep|
    ensures '$' !in rep ==> r == rep
  {
    if |rep| == 0 then ""
    else if rep[0] == '$' && |rep| >= 2 && rep[1] == '$' then "$" + Substitute(rep[2..], matched, pre, post)
    else if rep[0] == '$' && |rep| >= 2 && rep[1] == '&' then matched + Substitute(rep[2..], matched, pre, post)
    else if rep[0] == '$' && |rep| >= 2 && rep[1] == '`' then pre + Substitute(rep[2..], matched, pre, post)
    else if rep[0] == '$' && |rep| >= 2 && rep[1] == '\'' then post + Substitute(rep[2..], matched, pre, post)
    else
      assert rep == [rep[0]] + rep[1..];
      [rep[0]] + Substitute(rep[1..], matched, pre, post)
  }

  /** The replacement scan over `s`, resumed at index `from`. */
  function ReplaceFrom(s: string, pat: string, rep: string, from: nat): string
    requires |pat| > 0
    requires from <= |s|
    decreases |s| - from
  {
    if from + |pat| > |s| then s[from..]
    else if s[from..from + |pat|] == pat then
      Substitute(rep, pat, s[..from], s[from + |pat|..]) + ReplaceFrom(s, pat, rep, from + |pat|)
    else [s[from]] + ReplaceFrom(s, pat, rep, from + 1)
  }

  /**
   * `s.replace(/pat/g, rep)`. When `rep` holds no `$` this is
   * `s.split(pat).join(rep)`, and a text without `pat` comes back unchanged.
   */
  function ReplaceAll(s: string, pat: string, rep: string): (r: string)
    requires |pat| > 0
    ensures NoOccurrence(s, pat) ==> r == s
    ensures '$' !in rep ==> r == Join(Split(s, pat), rep)
  {
    if NoOccurrence(s, pat) then
      ReplaceSkip(s, pat, rep, 0, |s|);
      ReplaceFrom(s, pat, rep, 0)
    else if '$' !in rep then
      ReplaceIsSplitJoin(s, pat, rep, 0);
      ReplaceFrom(s, pat, rep, 0)
    else
      ReplaceFrom(s, pat, rep, 0)
  }

  /** A stretch without matches is copied through unchanged. */
  lemma {:induction false} ReplaceSkip(s: string, pat: string, rep: string, i: nat, j: nat)
    requires |pat| > 0
    requires i <= j <= |s|
    requires forall k :: i <= k < j ==> !OccursAt(s, pat, k)
    decreases j - i
    ensures ReplaceFrom(s, pat, rep, i) == s[i..j] + ReplaceFrom(s, pat, rep, j)
  {
    if i == j {
    } else if i + |pat| > |s| {
      ReplaceShort(s, pat, rep, i, j);
    } else {
      ReplaceSkip(s, pat, rep, i + 1, j);
      ReplaceCopy(s, pat, rep, i);
      CopyThenSkip(s, i, j, ReplaceFrom(s, pat, rep, i + 1), ReplaceFrom(s, pat, rep, j));
    }
  }

  /** Too close to the end for a match: the scan copies the rest. */
  lemma ReplaceShort(s: string, pat: string, rep: string, i: nat, j: nat)
    requires |pat| > 0
    requires i <= j <= |s| && i + |pat| > |s|
    ensures ReplaceFrom(s, pat, rep, i) == s[i..j] + ReplaceFrom(s, pat, rep, j)
  {
    assert ReplaceFrom(s, pat, rep, j) == s[j..];
    assert s[i..] == s[i..j] + s[j..];
  }

  /**
   * One copied character followed by a copied stretch is the longer stretch.
   * Kept apart from `ReplaceSkip` so that the regrouping is not done
   * alongside the definition of `ReplaceFrom`, where it is costly.
   */
  lemma CopyThenSkip(s: string, i: nat, j: nat, mid: string, rest: string)
    requires i < j <= |s|
    requires mid == s[i + 1..j] + rest
    ensures [s[i]] + mid == s[i..j] + rest
  {
    assert s[i..j] == [s[i]] + s[i + 1..j];
  }

  /** Where no match starts, the scan copies one character and moves on. */
  lemma ReplaceCopy(s: string, pat: string, rep: string, i: nat)
    requires |pat| > 0
    requires i + |pat| <= |s|
    requires !OccursAt(s, pat, i)
    ensures ReplaceFrom(s, pat, rep, i) == [s[i]] + ReplaceFrom(s, pat, rep, i + 1)
  {
    assert s[i..i + |pat|] != pat;
  }

  /** With a `$`-free replacement the scan agrees with split-then-join. */
  lemma {:induction false} ReplaceIsSplitJoin(s: string, pat: string, rep: string, from: nat)
    requires |pat| > 0
    requires from <= |s|
    requires '$' !in rep
    decreases |s| - from
    ensures ReplaceFrom(s, pat, rep, from) == Join(SplitFrom(s, pat, from), rep)
  {
    var found := FindFrom(s, pat, from);
    if found.None? {
      ReplaceTail(s, pat, rep, from);
    } else {
      var i := found.value;
      var next := i + |pat|;
      ReplaceIsSplitJoin(s, pat, rep, next);
      ReplaceStep(s, pat, rep, from, i, next);
    }
  }

  /** Past the last match the scan copies the rest, which is also the one remaining piece. */
  lemma ReplaceTail(s: string, pat: string, rep: string, from: nat)
    requires |pat| > 0
    requires from <= |s|
    requires FindFrom(s, pat, from).None?
    ensures ReplaceFrom(s, pat, rep, from) == Join(SplitFrom(s, pat, from), rep)
  {
    ReplaceSkip(s, pat, rep, from, |s|);
    assert ReplaceFrom(s, pat, rep, |s|) == [];
    assert s[from..|s|] + [] == s[from..];
    SplitFromNone(s, pat, from);
  }

  /** One step of `ReplaceIsSplitJoin`: the text before the next match, the replacement, the rest. */
  lemma ReplaceStep(s: string, pat: string, rep: string, from: nat, i: nat, next: nat)
    requires |pat| > 0
    requires from <= |s|
    requires '$' !in rep
    requires FindFrom(s, pat, from) == Some(i)
    requires next == i + |pat| <= |s|
    requires ReplaceFrom(s, pat, rep, next) == Join(SplitFrom(s, pat, next), rep)
    ensures ReplaceFrom(s, pat, rep, from) == Join(SplitFrom(s, pat, from), rep)
  {
    var head, rest := s[from..i], SplitFrom(s, pat, next);
    var atMatch, tail := ReplaceFrom(s, pat, rep, i), ReplaceFrom(s, pat, rep, next);
    ReplaceSkip(s, pat, rep, from, i);
    ReplaceAtMatch(s, pat, rep, i);
    assert atMatch == rep + tail;
    SplitFromSome(s, pat, from, i);
    JoinCons(head, rest, rep);
    Regroup(head, rep, atMatch, tail, Join(rest, rep));
  }

  /**
   * The sequence algebra closing `ReplaceStep`, over plain strings. Kept
   * apart so that the regrouping is not done in a context that also holds
   * the definitions of `ReplaceFrom` and `SplitFrom`, where it is costly.
   */
  lemma Regroup(head: string, rep: string, atMatch: string, tail: string, joined: string)
    requires atMatch == rep + tail
    requires tail == joined
    ensures head + atMatch == head + rep + joined
  {
  }

  /** At a match with a `$`-free replacement, the replacement text is emitted verbatim. */
  lemma ReplaceAtMatch(s: string, pat: string, rep: string, i: nat)
    requires |pat| > 0
    requires OccursAt(s, pat, i)
    requires '$' !in rep
    ensures ReplaceFrom(s, pat, rep, i) == rep + ReplaceFrom(s, pat, rep, i + |pat|)
  {
  }
}

=== FILE: polyfills.dfy ===
/**
 * The two polyfills both client revisions install on older browsers:
 * `Array.prototype.indexOf(obj, start)` and `String.prototype.trim()`.
 */
module Polyfills {
  import opened Wrappers

  /**
   * The polyfill's scan: compare `this[k] === obj` for k = from, from + 1, ...
   * below the length. An index below zero reads `undefined`, which matches
   * no `obj` other than `undefined` itself; the model assumes such an `obj`.
   */
  function FirstMatch<T(==)>(a: seq<T>, obj: T, from: int): (r: int)
    decreases |a| - from
    ensures r == -1 || (from <= r && 0 <= r < |a| && a[r] == obj)
    ensures forall k :: from <= k < |a| && 0 <= k && (r == -1 || k < r) ==> a[k] != obj
  {
    if from >= |a| then -1
    else if 0 <= from && a[from] == obj then from
    else FirstMatch(a, obj, from + 1)
  }

  /** The polyfill as written: `start || 0` is where the scan begins. */
  function PolyfillIndexOf<T(==)>(a: seq<T>, obj: T, start: Option<int>): int {
    FirstMatch(a, obj, start.GetOr(0))
  }

  /**
   * The polyfill's loop. The result is -1 or the first index at or after
   * `start` holding `obj`; -1 exactly when no index from `start` on holds it.
   */
  method IndexOf<T(==)>(a: seq<T>, obj: T, start: Option<int>) returns (r: int)
    ensures r == PolyfillIndexOf(a, obj, start)
    ensures r == -1 || (start.GetOr(0) <= r && 0 <= r < |a| && a[r] == obj)
    ensures forall k :: start.GetOr(0) <= k < |a| && 0 <= k && (r == -1 || k < r) ==> a[k] != obj
  {
    var i := start.GetOr(0);
    var j := |a|;
    while i < j
      invariant j == |a|
      invariant FirstMatch(a, obj, i) == PolyfillIndexOf(a, obj, start)
      decreases j - i
    {
      if 0 <= i && a[i] == obj {
        return i;
      }
      i := i + 1;
    }
    return -1;
  }

  /**
   * Where `Array.prototype.indexOf` starts its search under section
   * 15.4.4.14 of ECMA-262 (edition 5.1): a negative `fromIndex` counts back
   * from the end of the array, and is clamped at 0.
   */
  function NativeStart(len: nat, start: Option<int>): (k: nat)
    ensures start.GetOr(0) >= 0 ==> k == start.GetOr(0)
    ensures start.GetOr(0) < 0 ==> k <= len
    ensures start.GetOr(0) < 0 && len + start.GetOr(0) >= 0 ==> k == len + start.GetOr(0)
    ensures len + start.GetOr(0) < 0 ==> k == 0
  {
    var n := start.GetOr(0);
    if n >= 0 then n
    else if len + n >= 0 then len + n
    else 0
  }

  /** `Array.prototype.indexOf` as ECMA-262 defines it. */
  function NativeIndexOf<T(==)>(a: seq<T>, obj: T, start: Option<int>): (r: int)
    ensures r == -1 || (NativeStart(|a|, start) <= r < |a| && a[r] == obj)
    ensures forall k :: NativeStart(|a|, start) <= k < |a| && (r == -1 || k < r) ==> a[k] != obj
  {
    FirstMatch(a, obj, NativeStart(|a|, start))
  }

  /** For a start of zero or more the polyfill and the native method agree. */
  lemma PolyfillAgreesWithNative<T>(a: seq<T>, obj: T, start: Option<int>)
    requires start.GetOr(0) >= 0
    ensures PolyfillIndexOf(a, obj, start) == NativeIndexOf(a, obj, start)
  {
  }

  /** The scan from a negative index finds what the scan from 0 finds. */
  lemma {:induction false} FirstMatchBelowZero<T>(a: seq<T>, obj: T, from: int)
    requires from <= 0
    decreases -from
    ensures FirstMatch(a, obj, from) == FirstMatch(a, obj, 0)
  {
    if from < 0 {
      FirstMatchBelowZero(a, obj, from + 1);
    }
  }

  /** The polyfill treats every negative start as 0. */
  lemma PolyfillIgnoresNegativeStart<T>(a: seq<T>, obj: T, start: int)
    requires start < 0
    ensures PolyfillIndexOf(a, obj, Some(start)) == PolyfillIndexOf(a, obj, None)
  {
    FirstMatchBelowZero(a, obj, start);
  }

  /** `[3, 1, 3].indexOf(3, -1)`: the polyfill answers 0, ECMA-262 answers 2. */
  lemma NegativeStartDiffers()
    ensures PolyfillIndexOf([3, 1, 3], 3, Some(-1)) == 0
    ensures NativeIndexOf([3, 1, 3], 3, Some(-1)) == 2
  {
    PolyfillIgnoresNegativeStart([3, 1, 3], 3, -1);
  }

  /**
   * The characters `\s` matches in a JavaScript regular expression: the
   * WhiteSpace and LineTerminator code points of ECMA-262.
   */
  const SpaceChars: set<char> := {
    '\t', '\U{000B}', '\U{000C}', ' ', '\U{00A0}', '\U{FEFF}',
    '\n', '\r', '\U{2028}', '\U{2029}',
    '\U{1680}', '\U{202F}', '\U{205F}', '\U{3000}'
  }

  predicate IsSpace(c: char) {
    c in SpaceChars || '\U{2000}' <= c <= '\U{200A}'
  }

  predicate AllSpace(s: string) {
    forall k :: 0 <= k < |s| ==> IsSpace(s[k])
  }

  /** The length of the run of white space that `^\s+` matches. */
  function LeadingSpace(s: string): (n: nat)
    ensures n <= |s| && AllSpace(s[..n])
    ensures n < |s| ==> !IsSpace(s[n])
  {
    if |s| > 0 && IsSpace(s[0]) then 1 + LeadingSpace(s[1..]) else 0
  }

  /** The length of the run of white space that `\s+$` matches. */
  function TrailingSpace(s: string): (n: nat)
    ensures n <= |s| && AllSpace(s[|s| - n..])
    ensures n < |s| ==> !IsSpace(s[|s| - n - 1])
  {
    if |s| > 0 && IsSpace(s[|s| - 1]) then 1 + TrailingSpace(s[..|s| - 1]) else 0
  }

  /**
   * `this.replace(/^\s+|\s+$/g, '')`: the result is a contiguous piece of
   * `s` with only white space before and after it, and it neither starts
   * nor ends with white space. It is empty exactly when `s` is all white space.
   */
  function Trim(s: string): (r: string)
    ensures exists i :: 0 <= i <= |s| - |r| && r == s[i..i + |r|] && AllSpace(s[..i]) && AllSpace(s[i + |r|..])
    ensures r == [] || (!IsSpace(r[0]) && !IsSpace(r[|r| - 1]))
    ensures r == [] <==> AllSpace(s)
  {
    var (a, b) := TrimBounds(s);
    var r := s[a..|s| - b];
    assert r == s[a..a + |r|] && s[a + |r|..] == s[|s| - b..];
    assert r != [] ==> r[0] == s[a] && r[|r| - 1] == s[|s| - b - 1];
    r
  }

  /** The lengths of the leading and the trailing run `Trim` strips. */
  function TrimBounds(s: string): (ab: (nat, nat))
    ensures ab.0 + ab.1 <= |s| && AllSpace(s[..ab.0]) && AllSpace(s[|s| - ab.1..])
    ensures ab.0 + ab.1 < |s| ==> !IsSpace(s[ab.0]) && !IsSpace(s[|s| - ab.1 - 1])
    ensures ab.0 + ab.1 == |s| <==> AllSpace(s)
  {
    var a := LeadingSpace(s);
    var b := TrailingSpace(s[a..]);
    TrimRuns(s, a, b);
    TrimEmpty(s, a, b);
    (a, b)
  }

  /** The two runs `Trim` strips: white space, and followed or preceded by none. */
  lemma TrimRuns(s: string, a: nat, b: nat)
    requires a <= |s| && AllSpace(s[..a]) && (a < |s| ==> !IsSpace(s[a]))
    requires b <= |s[a..]| && AllSpace(s[a..][|s| - a - b..])
    requires b < |s[a..]| ==> !IsSpace(s[a..][|s| - a - b - 1])
    ensures a + b <= |s| && AllSpace(s[..a]) && AllSpace(s[|s| - b..])
    ensures a + b < |s| ==> !IsSpace(s[a]) && !IsSpace(s[|s| - b - 1])
  {
    var t := s[a..];
    assert s[|s| - b..] == t[|t| - b..];
    if a + b < |s| {
      assert s[|s| - b - 1] == t[|t| - b - 1];
    }
  }

  /** Nothing is left between the runs exactly when `s` is all white space. */
  lemma TrimEmpty(s: string, a: nat, b: nat)
    requires a + b <= |s| && AllSpace(s[..a]) && AllSpace(s[|s| - b..])
    requires a + b < |s| ==> !IsSpace(s[a])
    ensures a + b == |s| <==> AllSpace(s)
  {
    if a + b == |s| {
      forall k | 0 <= k < |s|
        ensures IsSpace(s[k])
      {
        if k < a {
          assert s[k] == s[..a][k];
        } else {
          assert s[k] == s[|s| - b..][k - (|s| - b)];
        }
      }
    }
  }

  /**
   * Trimming is determined by its contract: whatever lies between a
   * white-space prefix and a white-space suffix, and does not itself start
   * or end with white space, is the trimmed text.
   */
  lemma TrimUnique(p: string, r: string, q: string)
    requires AllSpace(p) && AllSpace(q)
    requires r == [] || (!IsSpace(r[0]) && !IsSpace(r[|r| - 1]))
    ensures Trim(p + r + q) == r
  {
    var s := p + r + q;
    var a := LeadingSpace(s);
    if r == [] {
      assert AllSpace(s);
    } else {
      assert s[|p|] == r[0];
      assert a == |p|;
      var t := s[a..];
      assert t == r + q;
      var b := TrailingSpace(t);
      assert t[|r| - 1] == r[|r| - 1];
      assert b == |q|;
      assert t[..|t| - b] == r;
    }
  }

  /** Trimming twice is trimming once. */
  lemma TrimIdempotent(s: string)
    ensures Trim(Trim(s)) == Trim(s)
  {
    var r := Trim(s);
    assert [] + r + [] == r;
    TrimUnique([], r, []);
  }
}

=== FILE: text.dfy ===
/**
 * Searching for, splitting on and joining with a literal separator, the
 * string operations the client performs with `indexOf`, `split` and
 * a global literal `replace`.
 */
module Text {
  import opened Wrappers

  /**
   * A JavaScript string argument that is falsy: `undefined` or `null`
   * (both `None`) or the empty string.
   */
  predicate Falsy(a: Option<string>) {
    a.None? || a.value == ""
  }

  /** `a || d` for a string argument `a` and a string default `d`. */
  function OrElse(a: Option<string>, d: string): (r: string)
    ensures Falsy(a) ==> r == d
    ensures !Falsy(a) ==> r == a.value
  {
    if Falsy(a) then d else a.value
  }

  /** `pat` occurs in `s` starting at index `i`. */
  predicate OccursAt(s: string, pat: string, i: int) {
    0 <= i && i + |pat| <= |s| && s[i..i + |pat|] == pat
  }

  /** `pat` occurs nowhere in `s` at or after index `from`. */
  predicate NoOccurrenceFrom(s: string, pat: string, from: int) {
    forall i :: from <= i <= |s| ==> !OccursAt(s, pat, i)
  }

  predicate NoOccurrence(s: string, pat: string) {
    NoOccurrenceFrom(s, pat, 0)
  }

  /** The first index at or after `from` where `pat` occurs in `s`. */
  function FindFrom(s: string, pat: string, from: nat): (r: Option<nat>)
    decreases |s| - from
    ensures r.Some? ==> from <= r.value && OccursAt(s, pat, r.value)
    ensures r.Some? ==> forall j :: from <= j < r.value ==> !OccursAt(s, pat, j)
    ensures r.None? <==> NoOccurrenceFrom(s, pat, from)
  {
    if from + |pat| > |s| then None
    else if s[from..from + |pat|] == pat then
      assert OccursAt(s, pat, from);
      Some(from)
    else FindFrom(s, pat, from + 1)
  }

  /**
   * The pieces of `s[from..]` between the leftmost non-overlapping
   * occurrences of `sep`, as `String.prototype.split` with a string
   * separator returns them.
   */
  function SplitFrom(s: string, sep: string, from: nat): (parts: seq<string>)
    requires |sep| > 0
    requires from <= |s|
    decreases |s| - from
    ensures |parts| >= 1
    ensures forall k :: 0 <= k < |parts| ==> NoOccurrence(parts[k], sep)
  {
    match FindFrom(s, sep, from)
    case None =>
      NoOccurrenceInSuffix(s, sep, from);
      [s[from..]]
    case Some(i) =>
      NoOccurrenceInSlice(s, sep, from, i);
      [s[from..i]] + SplitFrom(s, sep, i + |sep|)
  }

  /**
   * Every piece but the last ends at a leftmost cut: followed by the
   * separator, the separator's first occurrence is the one just appended,
   * so no occurrence starts inside the piece, not even one that would run
   * on into the separator.
   */
  predicate LeftmostCuts(parts: seq<string>, sep: string) {
    forall k {:trigger CutAtEnd(parts[k], sep)} :: 0 <= k < |parts| - 1 ==> CutAtEnd(parts[k], sep)
  }

  /** Followed by `sep`, `piece` first holds `sep` at its end. */
  predicate CutAtEnd(piece: string, sep: string) {
    FindFrom(piece + sep, sep, 0) == Some(|piece|)
  }

  /** `s.split(sep)`. */
  function Split(s: string, sep: string): (parts: seq<string>)
    requires |sep| > 0
    ensures |parts| >= 1
    ensures forall k :: 0 <= k < |parts| ==> NoOccurrence(parts[k], sep)
    ensures LeftmostCuts(parts, sep)
  {
    SplitFromLeftmost(s, sep, 0);
    SplitFrom(s, sep, 0)
  }

  /** `Array.prototype.join` with a separator. */
  function Join(parts: seq<string>, sep: string): string {
    if |parts| == 0 then ""
    else if |parts| == 1 then parts[0]
    else parts[0] + sep + Join(parts[1..], sep)
  }

  /** Joining a leading piece onto at least one more. */
  lemma JoinCons(x: string, rest: seq<string>, sep: string)
    requires |rest| >= 1
    ensures Join([x] + rest, sep) == x + sep + Join(rest, sep)
  {
    assert ([x] + rest)[1..] == rest;
  }

  /** An occurrence inside `s[lo..hi]` is an occurrence inside `s`. */
  lemma OccursInSlice(s: string, pat: string, lo: nat, hi: nat, j: int)
    requires lo <= hi <= |s|
    requires OccursAt(s[lo..hi], pat, j)
    ensures OccursAt(s, pat, lo + j)
  {
    var t := s[lo..hi];
    assert forall k :: 0 <= k < |t| ==> t[k] == s[lo + k];
    assert t[j..j + |pat|] == s[lo + j..lo + j + |pat|];
  }

  /** `OccursInSlice` as an implication. */
  lemma SliceOccurrence(s: string, pat: string, lo: nat, hi: nat, j: int)
    requires lo <= hi <= |s|
    ensures OccursAt(s[lo..hi], pat, j) ==> OccursAt(s, pat, lo + j)
  {
    if OccursAt(s[lo..hi], pat, j) {
      OccursInSlice(s, pat, lo, hi, j);
    }
  }

  /** An occurrence inside `s` that lies within `s[lo..hi]` is an occurrence of the slice. */
  lemma SliceOccurrenceBack(s: string, pat: string, lo: nat, hi: nat, j: nat)
    requires lo <= hi <= |s|
    requires lo + j + |pat| <= hi
    ensures OccursAt(s, pat, lo + j) ==> OccursAt(s[lo..hi], pat, j)
  {
    var t := s[lo..hi];
    assert forall k :: 0 <= k < |t| ==> t[k] == s[lo + k];
    assert t[j..j + |pat|] == s[lo + j..lo + j + |pat|];
  }

  lemma NoOccurrenceInSlice(s: string, pat: string, lo: nat, hi: nat)
    requires |pat| > 0
    requires lo <= hi <= |s|
    requires forall j :: lo <= j < hi ==> !OccursAt(s, pat, j)
    ensures NoOccurrence(s[lo..hi], pat)
  {
    forall j | 0 <= j <= hi - lo
      ensures !OccursAt(s[lo..hi], pat, j)
    {
      SliceOccurrence(s, pat, lo, hi, j);
    }
  }

  lemma NoOccurrenceInSuffix(s: string, pat: string, lo: nat)
    requires |pat| > 0
    requires lo <= |s|
    requires NoOccurrenceFrom(s, pat, lo)
    ensures NoOccurrence(s[lo..], pat)
  {
    assert s[lo..] == s[lo..|s|];
    NoOccurrenceInSlice(s, pat, lo, |s|);
  }

  /** Splitting and joining back with the same separator gives the suffix back. */
  lemma {:induction false} JoinSplitFrom(s: string, sep: string, from: nat)
    requires |sep| > 0
    requires from <= |s|
    decreases |s| - from
    ensures Join(SplitFrom(s, sep, from), sep) == s[from..]
  {
    match FindFrom(s, sep, from)
    case None =>
      SplitFromNone(s, sep, from);
    case Some(i) =>
      JoinSplitFrom(s, sep, i + |sep|);
      JoinSplitStep(s, sep, from, i);
  }

  /** One step of `JoinSplitFrom`: the piece before a separator, the separator, the rest. */
  lemma JoinSplitStep(s: string, sep: string, from: nat, i: nat)
    requires |sep| > 0
    requires from <= |s|
    requires FindFrom(s, sep, from) == Some(i)
    requires Join(SplitFrom(s, sep, i + |sep|), sep) == s[i + |sep|..]
    ensures Join(SplitFrom(s, sep, from), sep) == s[from..]
  {
    var rest := SplitFrom(s, sep, i + |sep|);
    SplitFromSome(s, sep, from, i);
    assert s[i..i + |sep|] == sep;
    calc {
      Join(SplitFrom(s, sep, from), sep);
      Join([s[from..i]] + rest, sep);
      { JoinCons(s[from..i], rest, sep); }
      s[from..i] + sep + Join(rest, sep);
      s[from..i] + s[i..i + |sep|] + s[i + |sep|..];
      { SliceAround(s, from, i, i + |sep|); }
      s[from..];
    }
  }

  /** A suffix is the concatenation of three consecutive slices. */
  lemma SliceAround(s: string, from: nat, i: nat, j: nat)
    requires from <= i <= j <= |s|
    ensures s[from..] == s[from..i] + s[i..j] + s[j..]
  {
  }

  lemma JoinSplit(s: string, sep: string)
    requires |sep| > 0
    ensures Join(Split(s, sep), sep) == s
  {
    JoinSplitFrom(s, sep, 0);
  }

  /** No occurrence of `pat` covers index `k` when `s[k]` is a character `pat` lacks. */
  lemma NoOccurrenceAcross(s: string, pat: string, k: nat)
    requires k < |s|
    requires s[k] !in pat
    ensures forall p :: p <= k < p + |pat| ==> !OccursAt(s, pat, p)
  {
    forall p | p <= k < p + |pat| && OccursAt(s, pat, p)
      ensures false
    {
    }
  }

  /**
   * Two texts free of `pat`, glued at a character `pat` lacks, stay free
   * of `pat`.
   */
  lemma NoOccurrenceConcat(a: string, b: string, pat: string)
    requires NoOccurrence(a, pat) && NoOccurrence(b, pat)
    requires (|a| > 0 && a[|a| - 1] !in pat) || (|b| > 0 && b[0] !in pat)
    ensures NoOccurrence(a + b, pat)
  {
    var s := a + b;
    assert s[0..|a|] == a && s[|a|..|s|] == b;
    forall p | 0 <= p <= |s|
      ensures !OccursAt(s, pat, p)
    {
      if p + |pat| > |s| {
      } else if p + |pat| <= |a| {
        SliceOccurrenceBack(s, pat, 0, |a|, p);
      } else if p >= |a| {
        SliceOccurrenceBack(s, pat, |a|, |s|, p - |a|);
      } else if |a| > 0 && a[|a| - 1] !in pat {
        NoOccurrenceAcross(s, pat, |a| - 1);
      } else {
        NoOccurrenceAcross(s, pat, |a|);
      }
    }
  }

  /** `s.indexOf(pat) !== -1`. */
  predicate Contains(s: string, pat: string) {
    FindFrom(s, pat, 0).Some?
  }

  /** `indexOf(pat) !== -1`: the pattern occurs somewhere. */
  lemma ContainsIff(s: string, pat: string)
    ensures Contains(s, pat) <==> exists i :: OccursAt(s, pat, i)
  {
    if exists i :: OccursAt(s, pat, i) {
      var i :| OccursAt(s, pat, i);
      assert !NoOccurrenceFrom(s, pat, 0);
    }
  }

  /** A one-character text occurs exactly where that character stands. */
  lemma OccursAtChar(s: string, c: char, i: int)
    ensures OccursAt(s, [c], i) <==> 0 <= i < |s| && s[i] == c
  {
    if 0 <= i < |s| {
      assert s[i..i + 1] == [s[i]];
    }
  }

  lemma NoOccurrenceChar(s: string, c: char)
    ensures NoOccurrence(s, [c]) <==> c !in s
  {
    if c in s {
      var i :| 0 <= i < |s| && s[i] == c;
      OccursAtChar(s, c, i);
    } else {
      forall i | 0 <= i <= |s|
        ensures !OccursAt(s, [c], i)
      {
        OccursAtChar(s, c, i);
      }
    }
  }

  /** Without a separator from `from` on, the split is the one remaining piece. */
  lemma SplitFromNone(s: string, sep: string, from: nat)
    requires |sep| > 0
    requires from <= |s|
    requires FindFrom(s, sep, from).None?
    ensures SplitFrom(s, sep, from) == [s[from..]]
  {
  }

  /**
   * With a separator at `i`, the first piece runs up to it and the
   * remaining pieces are the split of what follows it.
   */
  lemma SplitFromSome(s: string, sep: string, from: nat, i: nat)
    requires |sep| > 0
    requires from <= |s|
    requires FindFrom(s, sep, from) == Some(i)
    ensures SplitFrom(s, sep, from) == [s[from..i]] + SplitFrom(s, sep, i + |sep|)
    ensures var parts := SplitFrom(s, sep, from);
      |parts| >= 2 && parts[0] == s[from..i] && parts[1..] == SplitFrom(s, sep, i + |sep|)
  {
    var rest := SplitFrom(s, sep, i + |sep|);
    assert ([s[from..i]] + rest)[1..] == rest;
  }

  /** The pieces of a split from any index are cut at leftmost occurrences. */
  lemma {:induction false} SplitFromLeftmost(s: string, sep: string, from: nat)
    requires |sep| > 0
    requires from <= |s|
    decreases |s| - from
    ensures LeftmostCuts(SplitFrom(s, sep, from), sep)
  {
    var found := FindFrom(s, sep, from);
    if found.None? {
      SplitFromNone(s, sep, from);
      LeftmostSingle(s[from..], sep);
    } else {
      var i := found.value;
      SplitFromLeftmost(s, sep, i + |sep|);
      LeftmostStep(s, sep, from, i);
    }
  }

  /** A single piece has no cut. */
  lemma LeftmostSingle(p: string, sep: string)
    ensures LeftmostCuts([p], sep)
  {
  }

  /** One step of `SplitFromLeftmost`: the leading piece ends at a leftmost cut. */
  lemma LeftmostStep(s: string, sep: string, from: nat, i: nat)
    requires |sep| > 0
    requires from <= |s|
    requires FindFrom(s, sep, from) == Some(i)
    requires i + |sep| <= |s|
    requires LeftmostCuts(SplitFrom(s, sep, i + |sep|), sep)
    ensures LeftmostCuts(SplitFrom(s, sep, from), sep)
  {
    var head, rest := s[from..i], SplitFrom(s, sep, i + |sep|);
    SplitFromSome(s, sep, from, i);
    PieceBeforeCut(s, sep, from, i);
    LeftmostCons(head, rest, sep, SplitFrom(s, sep, from));
  }

  /** Prepending a piece cut at a leftmost occurrence keeps the cuts leftmost. */
  lemma LeftmostCons(head: string, rest: seq<string>, sep: string, parts: seq<string>)
    requires |rest| >= 1
    requires CutAtEnd(head, sep)
    requires LeftmostCuts(rest, sep)
    requires parts == [head] + rest
    ensures LeftmostCuts(parts, sep)
  {
    forall k | 0 <= k < |parts| - 1
      ensures CutAtEnd(parts[k], sep)
    {
      if k > 0 {
        assert parts[k] == rest[k - 1];
      }
    }
  }

  /** The piece before the next occurrence, followed by the separator, finds it at its end. */
  lemma PieceBeforeCut(s: string, sep: string, from: nat, i: nat)
    requires |sep| > 0
    requires from <= |s|
    requires FindFrom(s, sep, from) == Some(i)
    ensures CutAtEnd(s[from..i], sep)
  {
    PieceCutAtEnd(s, sep, from, i);
  }

  /** `PieceBeforeCut` from the facts `FindFrom` supplies. */
  lemma PieceCutAtEnd(s: string, sep: string, from: nat, i: nat)
    requires from <= i
    requires OccursAt(s, sep, i)
    requires forall j :: from <= j < i ==> !OccursAt(s, sep, j)
    ensures CutAtEnd(s[from..i], sep)
  {
    var t := s[from..i] + sep;
    assert |s[from..i]| == i - from;
    PieceThenSep(s, sep, from, i);
    forall j | 0 <= j < i - from
      ensures !OccursAt(t, sep, j)
    {
      SliceOccurrence(s, sep, from, i + |sep|, j);
    }
    OccursAtEnd(s[from..i], sep);
    FindFromIs(t, sep, 0, i - from);
  }

  /** The piece before an occurrence, with the separator appended, is a slice of `s`. */
  lemma PieceThenSep(s: string, sep: string, from: nat, i: nat)
    requires from <= i
    requires OccursAt(s, sep, i)
    ensures s[from..i] + sep == s[from..i + |sep|]
  {
    assert s[from..i + |sep|] == s[from..i] + s[i..i + |sep|];
  }

  /** A string occurs at the end of any string it is appended to. */
  lemma OccursAtEnd(a: string, b: string)
    ensures OccursAt(a + b, b, |a|)
  {
    assert (a + b)[|a|..|a| + |b|] == b;
  }

  /** The first occurrence at or after `from` is the one with none before it. */
  lemma {:induction false} FindFromIs(s: string, pat: string, from: nat, m: nat)
    requires from <= m
    requires OccursAt(s, pat, m)
    requires forall j :: from <= j < m ==> !OccursAt(s, pat, j)
    decreases m - from
    ensures FindFrom(s, pat, from) == Some(m)
  {
    if from < m {
      assert !OccursAt(s, pat, from);
      FindFromIs(s, pat, from + 1, m);
    }
  }

  /**
   * The first piece of a split from `from` runs to the next separator, or
   * to the end when there is none.
   */
  lemma LeadingPiece(s: string, sep: string, from: nat) returns (end: nat)
    requires |sep| > 0
    requires from <= |s|
    ensures from <= end <= |s|
    ensures SplitFrom(s, sep, from)[0] == s[from..end]
    ensures end == |s| || OccursAt(s, sep, end)
    ensures NoOccurrence(s[from..end], sep)
  {
    match FindFrom(s, sep, from)
    case None =>
      end := |s|;
      SplitFromNone(s, sep, from);
      assert s[from..] == s[from..end];
    case Some(k) =>
      end := k;
      SplitFromSome(s, sep, from, k);
  }

  /** The second piece of a split runs from after the first separator to the next one or the end. */
  lemma SecondPieceOf(s: string, sep: string) returns (end: nat)
    requires |sep| > 0
    requires Contains(s, sep)
    ensures var start := FindFrom(s, sep, 0).value + |sep|;
      && start <= end <= |s|
      && Split(s, sep)[1] == s[start..end]
      && (end == |s| || OccursAt(s, sep, end))
  {
    var first := FindFrom(s, sep, 0).value;
    SplitFromSome(s, sep, 0, first);
    end := LeadingPiece(s, sep, first + |sep|);
  }

  /** A text lacking the first character of `pat` cannot hold `pat`. */
  lemma NoOccurrenceWithoutHead(s: string, pat: string)
    requires |pat| > 0 && pat[0] !in s
    ensures NoOccurrence(s, pat)
  {
    forall k | 0 <= k <= |s| && OccursAt(s, pat, k)
      ensures false
    {
    }
  }

  /** A suffix free of `pat` means no occurrence from where the suffix starts. */
  lemma NoOccurrenceFromSuffix(s: string, pat: string, from: nat)
    requires from <= |s|
    requires NoOccurrence(s[from..], pat)
    ensures NoOccurrenceFrom(s, pat, from)
  {
    assert s[from..] == s[from..|s|];
    forall k | from <= k <= |s|
      ensures !OccursAt(s, pat, k)
    {
      if k + |pat| <= |s| {
        SliceOccurrenceBack(s, pat, from, |s|, k - from);
      }
    }
  }

  /**
   * A prefix free of `pat` and ending in a character `pat` lacks means no
   * occurrence starts inside the prefix.
   */
  lemma NoOccurrenceBefore(s: string, pat: string, n: nat)
    requires 0 < n <= |s|
    requires s[n - 1] !in pat
    requires NoOccurrence(s[..n], pat)
    ensures forall k :: 0 <= k < n ==> !OccursAt(s, pat, k)
  {
    NoOccurrenceAcross(s, pat, n - 1);
    assert s[..n] == s[0..n];
    forall k | 0 <= k < n && k + |pat| <= n
      ensures !OccursAt(s, pat, k)
    {
      SliceOccurrenceBack(s, pat, 0, n, k);
    }
  }
}

=== FILE: url_template.dfy ===
/** URL templating: `_URL` (v1) and `buildURL` (v1.2). */
module UrlTemplate {
  import opened Wrappers
  import opened Text
  import opened JsReplace
  import opened Config

  const ServerMark := "{{svr}}"
  const VersionMark := "{{ver}}"

  /**
   * Every `{{svr}}` in the template becomes the configured server, then
   * every `{{ver}}` in the result becomes the configured version. A
   * template holding neither placeholder comes back unchanged.
   */
  function BuildUrl(template: string, cfg: Settings): (url: string)
    ensures NoOccurrence(template, ServerMark) && NoOccurrence(template, VersionMark) ==> url == template
  {
    ReplaceAll(ReplaceAll(template, ServerMark, cfg.server), VersionMark, cfg.version)
  }

  /**
   * Settings whose server and version are inserted literally: neither
   * holds a `$` (which `replace` would expand), and the server holds no
   * `{{ver}}` (which the second pass would replace).
   */
  predicate PlainSettings(cfg: Settings) {
    '$' !in cfg.server && '$' !in cfg.version && NoOccurrence(cfg.server, VersionMark)
  }

  /** Text that holds neither placeholder. */
  predicate PlaceholderFree(s: string) {
    NoOccurrence(s, ServerMark) && NoOccurrence(s, VersionMark)
  }

  /** Both default configurations are plain. */
  lemma DefaultsArePlain(rev: Revision, token: Option<string>, xdomain: bool)
    ensures PlainSettings(Settings(ApiVersion, DefaultServer(rev), token, xdomain))
  {
    DefaultTextsPlain(rev);
    NoOccurrenceWithoutHead(DefaultServer(rev), VersionMark);
  }

  /** Text starting with `/` keeps its own placeholders when glued after another. */
  lemma PlaceholderFreeConcat(a: string, b: string)
    requires PlaceholderFree(a) && PlaceholderFree(b)
    requires (|a| > 0 && a[|a| - 1] == '/') || (|b| > 0 && b[0] == '/')
    ensures PlaceholderFree(a + b)
  {
    NoOccurrenceConcat(a, b, ServerMark);
    NoOccurrenceConcat(a, b, VersionMark);
  }

  /** Text without `{` holds no placeholder. */
  lemma WithoutBrace(s: string)
    requires '{' !in s
    ensures PlaceholderFree(s)
  {
    NoOccurrenceWithoutHead(s, ServerMark);
    NoOccurrenceWithoutHead(s, VersionMark);
  }

  /**
   * The shape every cloud endpoint uses: `{{svr}}/{{ver}}` followed by a
   * placeholder-free path starting with `/` expands to server, `/`,
   * version and the path.
   */
  lemma ApiPath(cfg: Settings, path: string)
    requires PlainSettings(cfg)
    requires PlaceholderFree(path) && |path| > 0 && path[0] == '/'
    ensures BuildUrl(ServerMark + "/" + VersionMark + path, cfg) == cfg.server + "/" + cfg.version + path
  {
    var tail := "/" + VersionMark + path;
    WithoutBrace("/");
    assert NoOccurrence(VersionMark, ServerMark) by {
      assert VersionMark[0..7][2] != ServerMark[2];
    }
    assert VersionMark[|VersionMark| - 1] == '}';
    NoOccurrenceConcat(VersionMark, path, ServerMark);
    NoOccurrenceConcat("/", VersionMark + path, ServerMark);
    assert tail == "/" + (VersionMark + path);
    assert ServerMark + "/" + VersionMark + path == ServerMark + tail;
    ServerPass(cfg.server, tail);
    assert cfg.server + tail == cfg.server + "/" + VersionMark + path;
    VersionPass(cfg.server, cfg.version, path);
  }

  /** The first pass replaces a leading `{{svr}}` and nothing after it. */
  lemma ServerPass(server: string, tail: string)
    requires '$' !in server
    requires NoOccurrence(tail, ServerMark)
    ensures ReplaceAll(ServerMark + tail, ServerMark, server) == server + tail
  {
    var t := ServerMark + tail;
    assert t[7..] == tail;
    NoOccurrenceFromSuffix(t, ServerMark, 7);
    ReplaceAtMatch(t, ServerMark, server, 0);
    ReplaceSkip(t, ServerMark, server, 7, |t|);
  }

  /** The second pass replaces the one `{{ver}}` between server and path. */
  lemma VersionPass(server: string, version: string, path: string)
    requires '$' !in version
    requires NoOccurrence(server, VersionMark) && NoOccurrence(path, VersionMark)
    ensures ReplaceAll(server + "/" + VersionMark + path, VersionMark, version) == server + "/" + version + path
  {
    var u := server + "/" + VersionMark + path;
    var n := |server| + 1;
    assert u[..n] == server + "/" == u[0..n];
    NoOccurrenceConcat(server, "/", VersionMark);
    NoOccurrenceBefore(u, VersionMark, n);
    ReplaceSkip(u, VersionMark, version, 0, n);
    assert u[n..n + 7] == VersionMark;
    ReplaceAtMatch(u, VersionMark, version, n);
    assert u[n + 7..] == path == u[n + 7..|u|];
    NoOccurrenceFromSuffix(u, VersionMark, n + 7);
    ReplaceSkip(u, VersionMark, version, n + 7, |u|);
    assert ReplaceFrom(u, VersionMark, version, |u|) == [];
    calc {
      ReplaceAll(u, VersionMark, version);
      ReplaceFrom(u, VersionMark, version, 0);
      u[0..n] + ReplaceFrom(u, VersionMark, version, n);
      (server + "/") + (version + ReplaceFrom(u, VersionMark, version, n + 7));
      (server + "/") + (version + (path + []));
      server + "/" + version + path;
    }
  }

  /**
   * The two passes run in order over the text so far: a `{{ver}}` the
   * server brings in is replaced by the second pass, while a `{{svr}}` the
   * version brings in stays.
   */
  lemma PassOrder(cfg: Settings)
    ensures cfg.server == VersionMark && '$' !in cfg.version ==> BuildUrl(ServerMark, cfg) == cfg.version
    ensures cfg.version == ServerMark ==> BuildUrl(VersionMark, cfg) == ServerMark
  {
    if cfg.server == VersionMark && '$' !in cfg.version {
      assert ServerMark + "" == ServerMark;
      ServerPass(cfg.server, "");
      var first := ReplaceAll(ServerMark, ServerMark, cfg.server);
      assert first == VersionMark;
      ReplaceAtMatch(first, VersionMark, cfg.version, 0);
      assert ReplaceFrom(first, VersionMark, cfg.version, 7) == [];
      assert ReplaceAll(first, VersionMark, cfg.version) == cfg.version;
    }
    if cfg.version == ServerMark {
      assert NoOccurrence(VersionMark, ServerMark) by {
        assert VersionMark[0..7][2] != ServerMark[2];
      }
      ReplaceAtMatch(VersionMark, VersionMark, cfg.version, 0);
    }
  }
}

=== FILE: wrappers.dfy ===
/** Optional values and results with an error channel, shared by every module. */
module Wrappers {

  /** `None` stands for a JavaScript `undefined` or `null`. */
  datatype Option<+T> = None | Some(value: T) {
    function GetOr(default: T): T {
      match this
      case Some(v) => v
      case None => default
    }
  }

  /** The outcome of an operation that may throw: `Failure` carries the thrown message. */
  datatype Result<+R, +E> = Success(value: R) | Failure(error: E)
}
